=== FILE: README.md ===
# comments-tree: comment store and user store

A Dafny model of the persistence and use-case core of `comments-tree`, a
FastAPI service for threaded comments with user accounts.

The comment side has four parts:

- a `comment` table whose rows point at a parent row;
- a recursive builder (`get_comment_tree`) that turns a row and its replies
  into a nested `Comment` entity;
- a repository with find / save / remove;
- the query and command use cases, which hand out `CommentReadDTO` views.

The user side has three parts:

- a `user` table with unique `username` and `email` columns;
- a repository with find, find-by-email, exists, find-all-by-creation-time,
  save and remove;
- the use cases for registering, creating and deleting users, fetching them,
  and authenticating by username or e-mail.

Each table is an immutable `map` from primary key to row. Every operation is
a pure function that returns the new table together with a `Result`:

- `Written(state, result)` for writes;
- a `Result` alone for reads.

A database failure is a boolean `fault` parameter. It yields
`Err(StorageFailure)` and leaves the table unchanged, which models the
rollback. Some values come from code outside the model and are parameters:

- `defaultStamp`: the column default for `created_at`, fixed when the module
  loads;
- `hash`: password hashing;
- `verify`: the password check.

The invariants each store keeps are these:

- comments: every row's id is its key; every parent reference names a stored
  row with a smaller key. That second fact is what makes the tree builder
  terminate, because the source has no cycle check. Every command preserves
  both (`CommentCommands.Replay`).
- users: every row's id is its key; no two rows share a username or an
  e-mail. Every command preserves both (`UserCommands.Replay`).

Module layout follows the source:

| module | file | models |
|---|---|---|
| `Wrappers`, `Keys`, `Stamps`, `Errors` | wrappers.dfy, keys.dfy, stamps.dfy, errors.dfy | `Option`/`Result`; truthiness of ids and SQLite key assignment; NULL-first timestamp order; error kinds |
| `CommentEntity` | comment_entity.dfy | `app/domain/comment/entity.py` |
| `CommentData` | comment_do.dfy | `app/infrastructure/comment/do.py` |
| `CommentTable` | comment_dto.dfy | `app/infrastructure/comment/dto.py` |
| `CommentRepository` | comment_repository.dfy | `app/infrastructure/comment/repository.py` |
| `CommentViews` | comment_read_dto.dfy | `app/usecase/comment/dto/query.py` |
| `CommentQueries`, `CommentCommands` | comment_query.dfy, comment_command.dfy | `app/usecase/comment/usecase/` |
| `UserEntity`, `UserViews` | user_entity.dfy, user_dto.dfy | `app/domain/user/entity.py`, `app/usecase/user/dto/query.py` |
| `UserRepository` | user_repository.dfy | `app/infrastructure/user/repository.py` |
| `UserQueries`, `UserCommands` | user_query.dfy, user_command.dfy | `app/usecase/user/usecase/` |

## Model

| member | source | states |
|---|---|---|
| Keys.InsertKey | app/infrastructure/comment/repository.py:27-31 | an entity reaches the insert branch when its id is falsy. An id of 0 is still written into the INSERT and becomes key 0. A missing id gets one more than the largest key, or 1 in an empty table |
| Keys.NextKey | app/infrastructure/comment/do.py:19 | the key the database assigns is fresh, above every key in use, and 1 when the table is empty |
| Stamps.NoLaterTotal | app/infrastructure/user/repository.py:44 | ordering by `created_at` with NULL first compares any two rows |
| Stamps.NoLaterTransitive | app/infrastructure/user/repository.py:44 | ordering by `created_at` with NULL first is transitive |
| CommentData.ChildIds | app/infrastructure/comment/do.py:58 | a row's `children` are exactly the rows whose parent is that row, in ascending key order, each once |
| CommentData.Tree | app/infrastructure/comment/do.py:48-61 | the built node copies id, content and both timestamps from its row and has no parent id. It has one child per reply, in reply order, each carrying the reply's id. Every node of the result has an id and none has a parent id |
| CommentData.Forest | app/infrastructure/comment/do.py:58-60 | the list comprehension over the replies yields one subtree per reply, in the same order, each rooted at that reply |
| CommentData.TreeChildren | app/infrastructure/comment/do.py:60 | child i of a built node is the tree built from reply i |
| CommentData.TreeIdsAreSubtree | app/infrastructure/comment/do.py:48-61 | the ids in a built tree are exactly the row and all its direct and indirect replies |
| CommentData.ChainDepth | app/tests/routers/test_comment.py:16-26 | the depth the nesting test intends: a root followed by n nested single replies builds a tree n + 1 levels deep. As written no such chain is ever stored (CommentCommands.NoNestingAsWritten) |
| CommentData.ToEntity | app/infrastructure/comment/do.py:29-33 | a stored row's entity is its tree, rooted at that row's key and without a parent id |
| CommentData.FromEntity | app/infrastructure/comment/do.py:35-45 | the row object copies id, content and timestamps from the entity. The parent id is not copied |
| CommentTable.ToEntity | app/infrastructure/comment/dto.py:29-36 | all five columns are copied, and the entity gets no children |
| CommentTable.ToReadModel | app/infrastructure/comment/dto.py:38-45 | the flat read model copies the five columns. It is refused with a validation error exactly when the id is missing |
| CommentTable.FromEntity | app/infrastructure/comment/dto.py:47-55 | all five fields are copied, the parent id included |
| CommentTable.EntityRoundTrip | app/infrastructure/comment/dto.py:29-55 | entity to table object and back loses only the children |
| CommentTable.TableRoundTrip | app/infrastructure/comment/dto.py:29-55 | table object to entity and back is the identity |
| CommentTable.ReadModelMatchesEntity | app/infrastructure/comment/dto.py:29-45 | for a row with an id, the read model and the entity carry the same five fields |
| CommentViews.View | app/usecase/comment/dto/query.py:23-31 | the nested view copies id, content and timestamps, has one child view per child, in order, and drops the parent id |
| CommentViews.FromEntity | app/usecase/comment/dto/query.py:14-31 | it succeeds exactly when every node of the tree has an id (the `id: int` field); otherwise it is a validation error |
| CommentViews.FromEntityAsWritten | app/usecase/comment/dto/query.py:24-31 | as written it reads the root's `children` attribute, which the builder attaches only to a node with replies. So a root without replies fails on the attribute access, and any other root gets the intended view |
| CommentViews.ViewRoundTrip | app/usecase/comment/dto/query.py:9-31 | for a fully identified tree without parent ids, the view loses nothing: the entity it describes is the tree itself |
| CommentViews.DescribedRoundTrip | app/usecase/comment/dto/query.py:9-31 | every view is the view of the entity it describes |
| CommentRepository.Find | app/infrastructure/comment/repository.py:18-24 | `None` exactly when no row has that key; otherwise the row's tree |
| CommentRepository.Persist | app/infrastructure/comment/do.py:19-24 | an inserted row takes its key as id, keeps content and parent id, and gets the column default when `created_at` is missing |
| CommentRepository.InsertKeepsValid | app/infrastructure/comment/repository.py:29-37 | adding a parentless row under a fresh key keeps the store valid, adds one row, and gives the new row no replies |
| CommentRepository.Insert | app/infrastructure/comment/repository.py:28-37 | the insert adds exactly the new key and keeps every other row. The new row is `from_entity`'s row under that key: the content, no parent, the update time, and the creation time or the column default. The insert returns the new row's tree, which has no children |
| CommentRepository.EntityThroughTable | app/infrastructure/comment/do.py:29-45 | a comment written through `from_entity` under a fresh key and read back through `to_entity` is the same comment, with the key as its id, no parent id, no replies, and the column default for a missing creation time |
| CommentRepository.Save | app/infrastructure/comment/repository.py:26-40 | an entity with a truthy id (neither `None` nor 0) takes the update branch: nothing changes and `None` is returned. A failure rolls back and is re-raised. An id of 0 that is already taken is refused by the primary key. Otherwise the save succeeds, and the result is the insert under the key the database assigns |
| CommentRepository.Detach | app/infrastructure/comment/repository.py:47-49 | the table after the delete: exactly that key goes, and each reply to it keeps every field but its parent id, which becomes NULL; other rows are unchanged |
| CommentRepository.Remove | app/infrastructure/comment/repository.py:42-49 | a missing key is a silent no-op. Otherwise exactly that row goes, and the replies to it keep all their fields but lose their parent id |
| CommentRepository.RemovedLeavesEveryChildList | app/infrastructure/comment/repository.py:42-49 | after a delete, the removed row is nobody's reply |
| CommentRepository.RemoveKeepsReplies | app/infrastructure/comment/repository.py:42-49 | a former reply of a deleted row survives, now as a root |
| CommentRepository.FindAll | app/usecase/comment/usecase/query.py:22 | the repository returns the tree of each row it lists, in its order |
| CommentRepository.Count | app/usecase/comment/usecase/query.py:28 | the count is the number of stored rows, replies included |
| CommentQueries.FetchOne | app/usecase/comment/usecase/query.py:11-18 | a missing comment is CommentDoesNotExist and a failed lookup is re-raised. Otherwise the result is the view of the comment's tree, with the stored id, content and timestamps |
| CommentQueries.FetchOneAsWritten | app/usecase/comment/usecase/query.py:11-18 | as written, it has the same error cases as the intended fetch, and whenever it succeeds it returns the intended view |
| CommentQueries.LeafFetchAsWritten | app/usecase/comment/usecase/query.py:18 | a stored comment with no replies fails as written with the missing attribute, while the intended fetch shows it with an empty children list |
| CommentQueries.FetchAsWrittenOffLeaves | app/usecase/comment/usecase/query.py:11-18 | on any comment that has replies, and on every error path, the as-written fetch agrees with the intended one |
| CommentQueries.FetchAll | app/usecase/comment/usecase/query.py:20-25 | one view per listed comment, in the listed order, each with the listed row's id |
| CommentQueries.Count | app/usecase/comment/usecase/query.py:27-28 | the count of stored comments |
| CommentCommands.NewComment | app/usecase/comment/usecase/command.py:12 | the entity built from the request takes only content and parent id. It has no id and no timestamps |
| CommentCommands.ViewOfSaved | app/usecase/comment/usecase/command.py:14 | the view of a saved tree is its read view; a save that returned nothing fails on the attribute access |
| CommentCommands.CreateComment | app/usecase/comment/usecase/command.py:11-14 | the store stays valid and a failure changes nothing. On success the new id was free and is the only key added, and no other row changes. The stored row has the given content and no parent, because the row object drops the parent id. The view shows the content and no children |
| CommentCommands.CreateCommentAsWritten | app/usecase/comment/usecase/command.py:11-14 | as written, every create that reaches the database ends in the missing-attribute error, and the store stays valid |
| CommentCommands.CreateAsWrittenFails | app/usecase/comment/usecase/command.py:13-14 | the as-written create stores the same row as the intended one but answers with the missing-attribute error, where the intended create answers with a view |
| CommentCommands.CreateIgnoresAuthorAndTime | app/usecase/comment/usecase/command.py:12 | two requests that differ only in author or timestamp produce the same store and the same answer |
| CommentCommands.DeleteComment | app/usecase/comment/usecase/command.py:16-17 | delete is remove. A missing id changes nothing and raises nothing; an existing one drops exactly one row |
| CommentCommands.Replay | app/usecase/comment/usecase/command.py:11-17 | any run of creates and deletes keeps the store valid, so every tree stays buildable. The size is the starting size plus successful creates minus effective deletes |
| CommentCommands.HistoryIsAcyclic | app/usecase/comment/usecase/command.py:11-17 | from an empty table, any history leaves a store the tree builder accepts, with as many rows as creates minus deletes |
| CommentCommands.HistoryStaysFlat | app/usecase/comment/usecase/command.py:11-17 | as written, a table of roots stays a table of roots under any history of creates and deletes |
| CommentCommands.NoNestingAsWritten | app/tests/routers/test_comment.py:16-22 | as written, every reply chain in a table built from the empty one is a single row, so the test's 50-deep chains never form |
| UserRepository.Find | app/infrastructure/user/repository.py:19-25 | `None` exactly when no user has that key; otherwise that user |
| UserRepository.One | app/infrastructure/user/repository.py:29-31 | `.one()` over the matching rows: `None` exactly when nothing matches, the match when all matches agree, and MultipleResultsFound only when two distinct rows match |
| UserRepository.FindBy | app/infrastructure/user/repository.py:27-33 | a `filter_by(...).one()` lookup on the username or e-mail column: `None` exactly when no stored user has that value; otherwise a stored user with it, the same one every match names. With unique columns it never reports several results. On the e-mail column this is find_by_email; on the username column it is the lookup the query use case calls |
| UserRepository.Exists | app/infrastructure/user/repository.py:35-41 | true exactly when some stored user has the same username or the same e-mail |
| UserRepository.ExistsIffFindable | app/infrastructure/user/repository.py:35-41 | in a valid table, exists holds exactly when a lookup by the username or by the e-mail finds someone |
| UserRepository.SortByCreation | app/infrastructure/user/repository.py:44 | the result is ordered by `created_at` with NULL first and is a permutation of the input |
| UserRepository.Listed | app/infrastructure/user/repository.py:44-45 | one entry per stored row; every stored user appears, and nothing else does |
| UserRepository.FindAll | app/infrastructure/user/repository.py:43-45 | every stored user, once each (same count, nothing else), ordered by creation time; a failure is reported |
| UserRepository.Stored | app/infrastructure/user/do.py:48-57 | the inserted row takes its key as id and gets the column default when `created_at` is missing. It keeps every other field, with the address itself in the e-mail column (the corrected `from_entity`) |
| UserRepository.InsertKeepsValid | app/infrastructure/user/repository.py:50-58 | inserting under a fresh key a user who clashes with nobody keeps keys and uniqueness, and adds one row |
| UserRepository.Save | app/infrastructure/user/repository.py:47-61 | a user with a truthy id (neither `None` nor 0) takes the update branch, a no-op. A failure rolls back. The unique columns, and a taken explicit key 0, refuse the commit (IntegrityError exactly then). Otherwise the save succeeds: the user is inserted under the assigned key, with the address itself in the e-mail column, and returned as stored |
| UserRepository.EmailRepr | app/infrastructure/user/do.py:52 | the column `from_entity` writes is the `Email` repr: the address wrapped in 15 more characters, one of them a parenthesis |
| UserRepository.EmailReprDiffers | app/infrastructure/user/do.py:52 | the written column never equals the address it came from |
| UserRepository.EmailReprInjective | app/infrastructure/user/do.py:52 | distinct addresses give distinct columns, so the unique constraint still separates them |
| UserRepository.ReadBack | app/infrastructure/user/do.py:36 | `to_entity` refuses a column holding a parenthesis with InvalidEmail (ValueError) and otherwise returns the row unchanged |
| UserRepository.StoredAsWritten | app/infrastructure/user/do.py:48-57 | as written, the inserted row differs from the corrected one only in the e-mail column. That column holds the repr, which differs from the address and cannot be read back |
| UserRepository.SaveAsWritten | app/infrastructure/user/repository.py:47-61 | as written, the unique constraint compares reprs: IntegrityError exactly on a clash with the username or the repr, or a taken key 0, with nothing written. Otherwise the row holding the repr is committed and reading it back fails with InvalidEmail |
| UserRepository.Remove | app/infrastructure/user/repository.py:63-70 | exactly that key goes and every other row stays; a missing key is a no-op |
| UserViews.ReadView | app/usecase/user/dto/query.py:50-60 | every field but the password is copied |
| UserViews.LoginView | app/usecase/user/dto/query.py:19-26 | id, username, password hash and e-mail are copied |
| UserCommands.ViewOfSaved | app/usecase/user/usecase/command.py:24 | the view of a saved user is its read view; a save that returned nothing fails on the attribute access |
| UserCommands.AddUser | app/usecase/user/usecase/command.py:21-24 | with the corrected e-mail column: a clash with a stored username or e-mail raises UserIsAlreadyExists before any write. A failure changes nothing. Otherwise exactly one fresh key is added, holding the user with the given password and flags, and the view shows them |
| UserCommands.AddUserAsWritten | app/usecase/user/usecase/command.py:21-24 | as written, no add succeeds. A shared username or a column equal to the bare address is UserIsAlreadyExists. A clash in the repr column is IntegrityError with nothing written. Otherwise the row holding the repr is committed and the result is InvalidEmail |
| UserCommands.DuplicateEmailAsWritten | app/tests/routers/test_user.py:87-97 | as written, a second user with a taken address passes exists and is refused by the database with IntegrityError, not UserIsAlreadyExists; a lookup by that address finds nobody |
| UserCommands.DuplicateEmailRefused | app/tests/routers/test_user.py:87-97 | with the address in the column, the first user is stored and found by e-mail, and a second user with the same address is refused with UserIsAlreadyExists and nothing written |
| UserCommands.RegisteredUser | app/usecase/user/usecase/command.py:15-20 | the registered entity carries the hashed password, is active, and is not a superuser |
| UserCommands.CreatedUser | app/usecase/user/usecase/command.py:27-34 | the created entity carries the hashed password and the caller's flags |
| UserCommands.RegisterUser | app/usecase/user/usecase/command.py:14-24 | with `created_at` supplied and no id (the corrected entity construction): a duplicate username or e-mail is refused with nothing written. Otherwise, unless the database fails, exactly one new row is stored: the registered entity under its new key, with the hashed password, active and not a superuser. The others stay unchanged, and the view returned is that row's read view |
| UserCommands.CreateUser | app/usecase/user/usecase/command.py:26-38 | as register_user: the stored row is the created entity under its new key, with the caller's `is_active` and `is_superuser`, and the view is that row's read view |
| UserCommands.RegisterUserAsWritten | app/usecase/user/usecase/command.py:14-19 | as written, every registration fails on the missing `data.created_at` with MissingAttribute, before exists and before any write |
| UserCommands.CreateUserAsWritten | app/usecase/user/usecase/command.py:26-31 | as written, every creation fails on the missing `data.created_at` with MissingAttribute, before exists and before any write |
| UserCommands.RegistrationAsWrittenFails | app/usecase/user/usecase/command.py:19 | a registration that the corrected use case stores, adding a row, fails as written and leaves the table as it was |
| UserCommands.CreationAsWrittenFails | app/usecase/user/usecase/command.py:31 | a creation that the corrected use case stores, adding a row, fails as written and leaves the table as it was |
| UserCommands.DeleteUser | app/usecase/user/usecase/command.py:40-41 | delete is remove: exactly that key goes |
| UserCommands.Replay | app/tests/routers/test_user.py:75-97 | after any run of registrations, creations and deletions, no two users share a username or an e-mail |
| UserQueries.FetchOne | app/usecase/user/usecase/query.py:15-22 | a missing user is UserDoesNotExist; otherwise that user's view |
| UserQueries.Lookup | app/usecase/user/usecase/query.py:26-31 | a non-empty username selects the lookup by username, else a non-empty e-mail selects the lookup by e-mail, else there is no lookup |
| UserQueries.Conclude | app/usecase/user/usecase/query.py:32-38 | no user is UserDoesNotExist and a password that does not check out is AuthenticateError. Success means a user was found and the password checked out |
| UserQueries.Authenticate | app/usecase/user/usecase/query.py:24-38 | with neither name nor e-mail the result is UserDoesNotExist. A success is a stored user, matched by the priority rule, whose password checks out. With unique columns, UserDoesNotExist means exactly that nobody matches |
| UserQueries.AuthenticateAsWritten | app/usecase/user/usecase/query.py:24-38 | as written, any non-empty username fails on the missing repository method; otherwise it behaves as the intended authenticate |
| UserQueries.UsernameTakesPriority | app/usecase/user/usecase/query.py:26-29 | when a username is given, the e-mail argument plays no part |
| UserQueries.LoginByUsername | app/tests/routers/test_user.py:31-38 | a stored user logs in by username with a password that checks out |
| UserQueries.LoginByEmail | app/tests/routers/test_user.py:41-48 | a stored user logs in by e-mail when no username is given |
| UserQueries.WrongPassword | app/usecase/user/usecase/query.py:36-37 | on the username route, a password that does not check out is refused with AuthenticateError |
| UserQueries.WrongPasswordByEmail | app/tests/routers/test_user.py:51-58 | on the e-mail route, with no username given, a password that does not check out is refused with AuthenticateError |
| UserQueries.UsernameLoginAsWritten | app/usecase/user/usecase/query.py:26-27 | a login by username that the intended use case accepts fails as written |
| UserQueries.ViewsCoverTable | app/usecase/user/usecase/query.py:45 | the views of a complete listing are exactly the views of the stored users |
| UserQueries.FetchAll | app/usecase/user/usecase/query.py:40-45 | one view per stored user, ordered by creation time; every stored user's view appears and nothing else |

## Left out

- HTTP routing, JWT tokens and the request-level pydantic checks are outside this core. Those checks cover comment content length and e-mail syntax. A request that fails them never reaches these functions.
- Password hashing and verification are parameters (`hash`, `verify`). `app/utils/auth.py` is not part of this model.
- The repositories cannot be instantiated as written. Their abstract base classes declare methods the concrete classes lack: `find_by_id` for comments; `create`, `find_by_id`, `update` and `delete_by_id` for users. The model gives the concrete methods their own behaviour.
- Sessions, transactions and concurrency are reduced to the `fault` flag with rollback. Faults are not modelled on remove, exists or count.
- CommentRepository.FindAll and CommentRepository.Count: `find_all` and `count` are called by the comment query use case but not defined by the comment repository. `find_all` is a caller-given list of stored keys; `count` is the number of rows.
- CommentQueries.FetchAll uses the nested `CommentReadDTO` view. The `CommentTreeNodeDTO` class it names is not part of this model.
- The time bound in the nesting test (`test_get_comments`) is a performance property and is not modelled. `CommentData.ChainDepth` gives the nesting depth the test intends. As written, every comment the test creates is a root, because `from_entity` drops the parent id (`CommentCommands.NoNestingAsWritten`).
- Deleting a comment clears its replies' `parent_id`, which is what a plain SQLAlchemy relationship does on delete.
- UserCommands.RegisterUser and UserCommands.CreateUser: these take `created_at` as a parameter and build the user with no id. As written, the request types declare no `created_at`, and the entity's `id` has no default. The first of these already fails every call (see Findings).
- `UserIsAlreadyExistsError` and `AuthenticateError` are imported (app/domain/user/__init__.py:4, app/usecase/user/usecase/query.py:4), but app/domain/user/exception.py defines only `UserDoesNotExistError`. Importing the user package therefore fails as written. The model treats UserIsAlreadyExists and AuthenticateError as the error kinds those names stand for.
- UserRepository.EmailRepr: Python's repr quotes an address holding a quote or a backslash differently; only the plain `Email(value='…')` form is modelled.
- UserRepository.ReadBack: of the e-mail validator's rules, only the refusal of parentheses is modelled. The `email_validator` package is not part of this model.
- UserRepository.Find, UserRepository.FindBy and UserRepository.FindAll: these read every row as it is. As written, a row holding the repr fails to read back in these lookups too (ValueError); only the save path models that read-back (UserRepository.SaveAsWritten).
- UserViews.LoginView: keeps the id as an integer. Pydantic's coercion of it to the `Optional[str]` field is not modelled.
- Timestamps are integers. `datetime` values, time zones and `updated_at` changes (no update operation exists) are not modelled.

## Findings

| source | as written | input that shows it | evidently intended | confidence | as-written member | corrected member |
|---|---|---|---|---|---|---|
| app/usecase/user/usecase/query.py:26-27 | authenticate calls `repository.find_by_username`, which UserRepository does not define, so every login by username raises AttributeError | a stored user `admin` with a correct password, logging in with username `admin` | look the user up by username, as find_by_email does by e-mail, and go on to the password check | not executed | UserQueries.AuthenticateAsWritten | UserQueries.Authenticate |
| app/usecase/user/usecase/command.py:19 | register_user and create_user (line 31) read `data.created_at`, which neither UserRegisterDTO nor UserCreateDTO declares, so every call raises AttributeError before exists and before any write | register `user01` / `User@123` / `user@devops.com` on any table | build the user with no id and with the creation time the caller has, which may be none, so that the column default applies | not executed | UserCommands.RegistrationAsWrittenFails | UserCommands.RegisterUser |
| app/infrastructure/user/do.py:52 | `from_entity` stores `str(user.email)`, the dataclass repr `Email(value='…')`. exists (repository.py:38) and find_by_email (repository.py:29) compare the column with the bare address, so a taken address is not detected. The unique constraint then refuses the insert with IntegrityError. A fresh insert is committed, and `to_entity` (do.py:36) refuses the repr with ValueError | with `created_at` repaired: register `user03@devops.com` under `user03`, then under `user04` | store `user.email.value`, so the second registration is refused with UserIsAlreadyExists | not executed | UserCommands.DuplicateEmailAsWritten | UserCommands.DuplicateEmailRefused |
| app/usecase/comment/dto/query.py:28 | from_entity reads `comment.children`, which `get_comment_tree` (do.py:59-60) sets only on a node with replies, so any comment without replies raises AttributeError. That includes every newly created one, after its row is committed | create_comment with content `abc` on an empty table; or fetch_one of a comment that has no replies | show a comment without replies with `children: []` | not executed | CommentCommands.CreateCommentAsWritten | CommentCommands.CreateComment |

=== FILE: comment_command.dfy ===
/** CommentCommandUseCase (app/usecase/comment/usecase/command.py). */
module CommentCommands {
  import opened Wrappers
  import opened Stamps
  import opened Keys
  import opened Errors
  import opened CommentEntity
  import opened CommentData
  import opened CommentRepository
  import CommentViews

  /** CommentCreateDTO: the validated request body. */
  datatype CommentCreateDTO = CommentCreateDTO(
    content: string,
    parentId: Option<int>,
    createdBy: Option<string>,
    createdAt: Stamp)

  /** The entity create_comment builds: only content and parent id are taken from the input. */
  function NewComment(data: CommentCreateDTO): (c: Comment)
    ensures c.content == data.content && c.parentId == data.parentId
    ensures c.id == None && c.createdAt == None && c.updatedAt == None && c.children == []
  {
    Comment(data.content, None, data.parentId, None, None, [])
  }

  /** The view of what save returned; save returning nothing would fail on the attribute access. */
  function ViewOfSaved(saved: Option<Comment>): (r: Result<CommentViews.CommentReadDTO, Error>)
    ensures saved.None? ==> r == Err(MissingAttribute)
    ensures saved.Some? ==> r == CommentViews.FromEntity(saved.value)
  {
    match saved
    case None => Err(MissingAttribute)
    case Some(c) => CommentViews.FromEntity(c)
  }

  /**
    create_comment: saves a new id-less comment and returns its view. As
    written, the parent id never reaches the stored row, so the new comment
    is a root with no replies.
   */
  function CreateComment(rows: Rows, data: CommentCreateDTO, defaultStamp: Stamp, fault: bool)
    : (out: Written<Rows, CommentViews.CommentReadDTO>)
    requires Valid(rows)
    ensures Valid(out.state)
    ensures fault ==> out == Written(rows, Err(StorageFailure))
    ensures !fault ==> out.result.Ok?
    ensures out.result.Ok? ==>
      var v := out.result.value;
      && v.id !in rows
      && out.state.Keys == rows.Keys + {v.id}
      && |out.state| == |rows| + 1
      && (forall j :: j in rows ==> out.state[j] == rows[j])
      && out.state[v.id].content == data.content
      && out.state[v.id].parentId == None
      && v.content == data.content
      && v.children == []
  {
    var saved := Save(rows, NewComment(data), defaultStamp, fault);
    if saved.result.Err? then Written(saved.state, Err(saved.result.error))
    else Written(saved.state, ViewOfSaved(saved.result.value))
  }

  /**
    create_comment as written: the row is committed, then the view step
    fails, because a fresh comment has no replies and so no `children`
    attribute.
   */
  function CreateCommentAsWritten(rows: Rows, data: CommentCreateDTO, defaultStamp: Stamp, fault: bool)
    : (out: Written<Rows, CommentViews.CommentReadDTO>)
    requires Valid(rows)
    ensures Valid(out.state)
    ensures fault ==> out == Written(rows, Err(StorageFailure))
    ensures !fault ==> out.result == Err(MissingAttribute)
  {
    var saved := Save(rows, NewComment(data), defaultStamp, fault);
    if saved.result.Err? then Written(saved.state, Err(saved.result.error))
    else if saved.result.value.None? then Written(saved.state, Err(MissingAttribute))
    else Written(saved.state, CommentViews.FromEntityAsWritten(saved.result.value.value))
  }

  /**
    The discrepancy: every create the intended use case answers with the new
    comment's view fails as written, with the same row stored all the same.
   */
  lemma CreateAsWrittenFails(rows: Rows, data: CommentCreateDTO, defaultStamp: Stamp)
    requires Valid(rows)
    ensures CreateComment(rows, data, defaultStamp, false).result.Ok?
    ensures CreateCommentAsWritten(rows, data, defaultStamp, false).result == Err(MissingAttribute)
    ensures CreateCommentAsWritten(rows, data, defaultStamp, false).state == CreateComment(rows, data, defaultStamp, false).state
  {
  }

  /** What create_comment does is independent of the author and timestamp given. */
  lemma CreateIgnoresAuthorAndTime(rows: Rows, a: CommentCreateDTO, b: CommentCreateDTO, defaultStamp: Stamp, fault: bool)
    requires Valid(rows)
    requires a.content == b.content && a.parentId == b.parentId
    ensures CreateComment(rows, a, defaultStamp, fault) == CreateComment(rows, b, defaultStamp, fault)
  {
    assert NewComment(a) == NewComment(b);
  }

  /** delete_comment: remove, so deleting a missing id changes nothing and raises nothing. */
  function DeleteComment(rows: Rows, id: int): (out: Written<Rows, ()>)
    requires Valid(rows)
    ensures out == Remove(rows, id)
    ensures out.result == Ok(())
    ensures id !in rows ==> out.state == rows
    ensures id in rows ==> |out.state| == |rows| - 1 && id !in out.state
  {
    Remove(rows, id)
  }

  datatype CommentCommand =
    | Create(data: CommentCreateDTO, fault: bool)
    | Delete(id: int)

  /** A store after a run of commands, with how many creates succeeded and how many deletes removed a row. */
  datatype Tally = Tally(rows: Rows, created: nat, deleted: nat)

  /**
    Runs the commands in order. The store stays valid, hence acyclic, and its
    size is the starting size plus successful creates minus effective deletes.
   */
  function Replay(rows: Rows, cmds: seq<CommentCommand>, defaultStamp: Stamp): (t: Tally)
    requires Valid(rows)
    ensures Valid(t.rows)
    ensures |t.rows| + t.deleted == |rows| + t.created
    ensures t.created + t.deleted <= |cmds|
    decreases |cmds|
  {
    if |cmds| == 0 then Tally(rows, 0, 0)
    else
      match cmds[0]
      case Create(data, fault) =>
        var out := CreateComment(rows, data, defaultStamp, fault);
        var t := Replay(out.state, cmds[1..], defaultStamp);
        if out.result.Ok? then Tally(t.rows, t.created + 1, t.deleted) else t
      case Delete(id) =>
        var out := DeleteComment(rows, id);
        var t := Replay(out.state, cmds[1..], defaultStamp);
        if id in rows then Tally(t.rows, t.created, t.deleted + 1) else t
  }

  /** No stored comment has a parent. */
  ghost predicate AllRoots(rows: Rows)
  {
    forall j :: j in rows ==> rows[j].parentId == None
  }

  /**
    As written, a history of commands never stores a reply: create drops the
    request's parent id, and delete only clears parent ids.
   */
  lemma {:induction false} HistoryStaysFlat(rows: Rows, cmds: seq<CommentCommand>, defaultStamp: Stamp)
    requires Valid(rows) && AllRoots(rows)
    ensures AllRoots(Replay(rows, cmds, defaultStamp).rows)
    decreases |cmds|
  {
    if |cmds| > 0 {
      match cmds[0]
      case Create(data, fault) =>
        CreateStaysFlat(rows, data, defaultStamp, fault);
        HistoryStaysFlat(CreateComment(rows, data, defaultStamp, fault).state, cmds[1..], defaultStamp);
      case Delete(id) =>
        DeleteStaysFlat(rows, id);
        HistoryStaysFlat(DeleteComment(rows, id).state, cmds[1..], defaultStamp);
    }
  }

  /** A create adds a root and keeps every other row. */
  lemma CreateStaysFlat(rows: Rows, data: CommentCreateDTO, defaultStamp: Stamp, fault: bool)
    requires Valid(rows) && AllRoots(rows)
    ensures AllRoots(CreateComment(rows, data, defaultStamp, fault).state)
  {
  }

  /** A delete only removes a row and clears parent ids. */
  lemma DeleteStaysFlat(rows: Rows, id: int)
    requires Valid(rows) && AllRoots(rows)
    ensures AllRoots(DeleteComment(rows, id).state)
  {
  }

  /**
    So the nesting test's 50-deep chains never form as written: in any
    table a history builds from the empty one, every reply chain is a single
    row, and every built tree is one level deep.
   */
  lemma NoNestingAsWritten(cmds: seq<CommentCommand>, defaultStamp: Stamp, ids: seq<int>)
    requires IsChain(Replay(map[], cmds, defaultStamp).rows, ids)
    ensures |ids| == 1
  {
    var rows := Replay(map[], cmds, defaultStamp).rows;
    HistoryStaysFlat(map[], cmds, defaultStamp);
    RootsHaveNoReplies(rows, ids[0]);
    ChainHead(rows, ids);
  }

  /** The second row of a chain, if there is one, is a reply to the first. */
  lemma ChainHead(rows: Rows, ids: seq<int>)
    requires IsChain(rows, ids)
    ensures |ids| > 1 ==> ids[1] in ChildSet(rows, ids[0])
  {
    if |ids| > 1 {
      assert ChildSet(rows, ids[0]) == {ids[1]};
    }
  }

  /** In a table of roots, no row has a reply. */
  lemma RootsHaveNoReplies(rows: Rows, k: int)
    requires AllRoots(rows)
    ensures ChildSet(rows, k) == {}
  {
    NoMembers(ChildSet(rows, k));
  }

  /** Any history of commands starting from the empty table leaves every row's tree buildable. */
  lemma HistoryIsAcyclic(cmds: seq<CommentCommand>, defaultStamp: Stamp)
    ensures Valid(map[])
    ensures WellFormed(Replay(map[], cmds, defaultStamp).rows)
    ensures |Replay(map[], cmds, defaultStamp).rows| ==
      Replay(map[], cmds, defaultStamp).created - Replay(map[], cmds, defaultStamp).deleted
  {
  }
}

=== FILE: comment_do.dfy ===
/**
  The stored comment row and the recursive tree builder
  (app/infrastructure/comment/do.py).

  A store is a map from primary key to row. A row's children are the rows
  whose `parent_id` is its key; they are taken in ascending key order, the
  order in which the database hands out keys. The builder has no cycle check,
  so it needs the store to be acyclic: here, every parent key is smaller than
  its child's key (`ParentsBelow`), which every store operation preserves.
 */
module CommentData {
  import opened Wrappers
  import opened Stamps
  import opened Keys
  import opened CommentEntity

  /** One row of the `comment` table, as the ORM object holds it. */
  datatype CommentDO = CommentDO(
    id: Option<int>,
    content: string,
    parentId: Option<int>,
    createdAt: Option<Stamp>,
    updatedAt: Option<Stamp>)

  type Rows = map<int, CommentDO>

  /** Each row's id column is its key. */
  ghost predicate Keyed(rows: Rows)
  {
    forall k :: k in rows ==> rows[k].id == Some(k)
  }

  /** A parent's key is below its child's key: the store holds no cycle. */
  ghost predicate ParentsBelow(rows: Rows)
  {
    forall k :: k in rows && rows[k].parentId.Some? ==> rows[k].parentId.value < k
  }

  /** Every parent reference names a stored row. */
  ghost predicate ParentsExist(rows: Rows)
  {
    forall k :: k in rows && rows[k].parentId.Some? ==> rows[k].parentId.value in rows
  }

  /** What the tree builder needs of a store. */
  ghost predicate WellFormed(rows: Rows)
  {
    Keyed(rows) && ParentsBelow(rows)
  }

  /** The invariant every store operation keeps. */
  ghost predicate Valid(rows: Rows)
  {
    WellFormed(rows) && ParentsExist(rows)
  }

  /** The keys of the rows that reply to row `k`. */
  function ChildSet(rows: Rows, k: int): (s: set<int>)
    ensures forall j :: j in s <==> j in rows && rows[j].parentId == Some(k)
  {
    set j | j in rows.Keys && rows[j].parentId == Some(k)
  }

  /** The replies to row `k` in the order the `children` relationship yields them. */
  function ChildIds(rows: Rows, k: int): (ids: seq<int>)
    ensures forall j :: j in ids <==> j in rows && rows[j].parentId == Some(k)
    ensures StrictlyIncreasing(ids)
  {
    SortedKeys(ChildSet(rows, k))
  }

  ghost function Above(rows: Rows, k: int): set<int>
  {
    set j | j in rows && j >= k
  }

  lemma AboveShrinks(rows: Rows, k: int, j: int)
    requires k in rows && k < j
    ensures Above(rows, j) < Above(rows, k)
  {
    assert k in Above(rows, k) && k !in Above(rows, j);
  }

  /**
    get_comment_tree: the node for row `k`, with id, content and timestamps
    copied from the row, no parent id, and one subtree per reply.
   */
  function Tree(rows: Rows, k: int): (c: Comment)
    requires k in rows
    requires WellFormed(rows)
    ensures c.id == rows[k].id == Some(k)
    ensures c.content == rows[k].content
    ensures c.createdAt == rows[k].createdAt && c.updatedAt == rows[k].updatedAt
    ensures c.parentId == None
    ensures |c.children| == |ChildIds(rows, k)|
    ensures forall i :: 0 <= i < |c.children| ==> c.children[i].id == Some(ChildIds(rows, k)[i])
    ensures HasIds(c) && Parentless(c)
    decreases Above(rows, k), 1
  {
    var row := rows[k];
    Comment(row.content, row.id, None, row.createdAt, row.updatedAt, Forest(rows, k))
  }

  /** The subtrees of the replies to row `k`, in reply order. */
  function Forest(rows: Rows, k: int): (kids: seq<Comment>)
    requires k in rows
    requires WellFormed(rows)
    ensures |kids| == |ChildIds(rows, k)|
    ensures forall i :: 0 <= i < |kids| ==>
      kids[i].id == Some(ChildIds(rows, k)[i]) && HasIds(kids[i]) && Parentless(kids[i])
    decreases Above(rows, k), 0
  {
    var ids := ChildIds(rows, k);
    seq(|ids|, i requires 0 <= i < |ids| =>
      ChildBelow(rows, k, i);
      Tree(rows, ids[i]))
  }

  /** A reply is stored, and fewer rows lie at or above it. */
  lemma ChildBelow(rows: Rows, k: int, i: int)
    requires k in rows && ParentsBelow(rows)
    requires 0 <= i < |ChildIds(rows, k)|
    ensures ChildIds(rows, k)[i] in rows
    ensures Above(rows, ChildIds(rows, k)[i]) < Above(rows, k)
  {
    var j := ChildIds(rows, k)[i];
    assert j in ChildIds(rows, k);
    AboveShrinks(rows, k, j);
  }

  /** The builder's children are the trees of the row's replies, in reply order. */
  lemma TreeChildren(rows: Rows, k: int, i: int)
    requires k in rows && WellFormed(rows)
    requires 0 <= i < |ChildIds(rows, k)|
    ensures ChildIds(rows, k)[i] in rows
    ensures Tree(rows, k).children[i] == Tree(rows, ChildIds(rows, k)[i])
  {
    assert ChildIds(rows, k)[i] in ChildIds(rows, k);
  }

  /** CommentDO.to_entity: the entity of a stored row is its tree. */
  function ToEntity(rows: Rows, k: int): (c: Comment)
    requires k in rows && WellFormed(rows)
    ensures c == Tree(rows, k)
    ensures c.id == Some(k) && c.parentId.None?
  {
    Tree(rows, k)
  }

  /** CommentDO.from_entity: copies id, content and timestamps; the parent id is not copied. */
  function FromEntity(c: Comment): (d: CommentDO)
    ensures d.id == c.id && d.content == c.content
    ensures d.createdAt == c.createdAt && d.updatedAt == c.updatedAt
    ensures d.parentId == None
  {
    CommentDO(c.id, c.content, None, c.createdAt, c.updatedAt)
  }

  // ---------------------------------------------------------------------
  // Descendants, defined bottom-up by following parent links.

  ghost function Below(rows: Rows, k: int): set<int>
  {
    set j | j in rows && j <= k
  }

  /** Row `d` is a reply, direct or indirect, to row `a`. */
  ghost predicate Descends(rows: Rows, a: int, d: int)
    decreases Below(rows, d)
  {
    d in rows && rows[d].parentId.Some? &&
    var p := rows[d].parentId.value;
    p == a || (p in rows && p < d && (assert d in Below(rows, d) && d !in Below(rows, p); Descends(rows, a, p)))
  }

  /** Row `k` and all its descendants. */
  ghost function Subtree(rows: Rows, k: int): set<int>
  {
    {k} + set d | d in rows && Descends(rows, k, d)
  }

  /** A descendant of `k` is a reply to `k` or a descendant of one. */
  lemma {:induction false} DescendsSplit(rows: Rows, k: int, d: int)
    requires ParentsBelow(rows)
    requires Descends(rows, k, d)
    ensures exists j :: j in rows && rows[j].parentId == Some(k) && (d == j || Descends(rows, j, d))
    decreases Below(rows, d)
  {
    var p := rows[d].parentId.value;
    if p != k {
      assert d in Below(rows, d) && d !in Below(rows, p);
      DescendsSplit(rows, k, p);
      var j :| j in rows && rows[j].parentId == Some(k) && (p == j || Descends(rows, j, p));
      assert Descends(rows, j, d);
    }
  }

  /** A descendant of a reply to `k` descends from `k`. */
  lemma {:induction false} DescendsThrough(rows: Rows, k: int, j: int, d: int)
    requires ParentsBelow(rows)
    requires j in rows && rows[j].parentId == Some(k)
    requires Descends(rows, j, d)
    ensures Descends(rows, k, d)
    decreases Below(rows, d)
  {
    var p := rows[d].parentId.value;
    if p == j {
      assert Descends(rows, k, j);
    } else {
      assert d in Below(rows, d) && d !in Below(rows, p);
      DescendsThrough(rows, k, j, p);
    }
  }

  /** The ids in the tree of `k` are exactly `k` and its descendants. */
  lemma {:induction false} TreeIdsAreSubtree(rows: Rows, k: int)
    requires k in rows && WellFormed(rows)
    ensures Ids(Tree(rows, k)) == Subtree(rows, k)
    decreases Above(rows, k)
  {
    forall x ensures x in Ids(Tree(rows, k)) <==> x in Subtree(rows, k) {
      TreeIdsStep(rows, k, x);
    }
  }

  lemma {:induction false} TreeIdsStep(rows: Rows, k: int, x: int)
    requires k in rows && WellFormed(rows)
    ensures x in Ids(Tree(rows, k)) <==> x in Subtree(rows, k)
    decreases Above(rows, k), 1
  {
    var t := Tree(rows, k);
    IdsUnfold(t, x);
    SubtreeMember(rows, k, x);
    if x != k {
      if x in Ids(t) {
        var i :| 0 <= i < |t.children| && x in Ids(t.children[i]);
        ChildInSubtree(rows, k, i, x);
      }
      if Descends(rows, k, x) {
        DescendantInChild(rows, k, x);
      }
    }
  }

  lemma SubtreeMember(rows: Rows, k: int, x: int)
    ensures x in Subtree(rows, k) <==> x == k || (x in rows && Descends(rows, k, x))
  {
  }

  lemma {:induction false} DescendantInChild(rows: Rows, k: int, x: int)
    requires k in rows && WellFormed(rows)
    requires Descends(rows, k, x)
    ensures x in Ids(Tree(rows, k))
    decreases Above(rows, k), 0
  {
    var t := Tree(rows, k);
    var ids := ChildIds(rows, k);
    DescendsSplit(rows, k, x);
    var j :| j in rows && rows[j].parentId == Some(k) && (x == j || Descends(rows, j, x));
    assert j in ids;
    var i :| 0 <= i < |ids| && ids[i] == j;
    TreeChildren(rows, k, i);
    AboveShrinks(rows, k, j);
    TreeIdsAreSubtree(rows, j);
    assert x in Ids(t.children[i]);
    IdsUnfold(t, x);
  }

  lemma {:induction false} ChildInSubtree(rows: Rows, k: int, i: int, x: int)
    requires k in rows && WellFormed(rows)
    requires 0 <= i < |Tree(rows, k).children|
    requires x in Ids(Tree(rows, k).children[i])
    ensures x in Subtree(rows, k)
    decreases Above(rows, k), 0
  {
    var j := ChildIds(rows, k)[i];
    TreeChildren(rows, k, i);
    AboveShrinks(rows, k, j);
    TreeIdsAreSubtree(rows, j);
    assert x in Subtree(rows, j);
    if x != j {
      DescendsThrough(rows, k, j, x);
    } else {
      assert Descends(rows, k, x);
    }
  }

  // ---------------------------------------------------------------------
  // Nesting depth of a reply chain.

  /**
    `ids` is a reply chain: each row is the only reply to the one before it,
    and the last row has no reply.
   */
  ghost predicate IsChain(rows: Rows, ids: seq<int>)
  {
    && |ids| > 0
    && (forall i :: 0 <= i < |ids| ==> ids[i] in rows)
    && (forall i :: 0 <= i < |ids| - 1 ==> ChildSet(rows, ids[i]) == {ids[i + 1]})
    && ChildSet(rows, ids[|ids| - 1]) == {}
  }

  /** A root followed by n nested replies builds a tree n + 1 levels deep. */
  lemma {:induction false} ChainDepth(rows: Rows, ids: seq<int>)
    requires WellFormed(rows) && IsChain(rows, ids)
    ensures Depth(Tree(rows, ids[0])) == |ids|
    decreases |ids|
  {
    var t := Tree(rows, ids[0]);
    if |ids| == 1 {
      ChainEnd(rows, ids[0]);
      DepthLeaf(t);
    } else {
      ChainStep(rows, ids[0], ids[1]);
      ChainTail(rows, ids);
      ChainDepth(rows, ids[1..]);
      DepthOnlyChild(t);
    }
  }

  /** A row without replies builds a leaf. */
  lemma ChainEnd(rows: Rows, k: int)
    requires WellFormed(rows) && k in rows
    requires ChildSet(rows, k) == {}
    ensures Tree(rows, k).children == []
  {
    assert |ChildIds(rows, k)| == 0;
  }

  /** A row whose only reply is `j` builds a node whose only child is the tree of `j`. */
  lemma ChainStep(rows: Rows, k: int, j: int)
    requires WellFormed(rows) && k in rows
    requires ChildSet(rows, k) == {j}
    ensures j in rows
    ensures Tree(rows, k).children == [Tree(rows, j)]
  {
    SortedSingleton(ChildSet(rows, k), j);
    TreeChildren(rows, k, 0);
  }

  /** Dropping the head of a chain of two or more rows leaves a chain. */
  lemma ChainTail(rows: Rows, ids: seq<int>)
    requires IsChain(rows, ids) && |ids| > 1
    ensures IsChain(rows, ids[1..])
  {
    var rest := ids[1..];
    assert forall i :: 0 <= i < |rest| ==> rest[i] == ids[i + 1];
  }
}

=== FILE: comment_dto.dfy ===
/**
  The second ORM mapping of the `comment` table
  (app/infrastructure/comment/dto.py): plain field copies between the table
  object, the entity and the flat read model.
 */
module CommentTable {
  import opened Wrappers
  import opened Stamps
  import opened Errors
  import opened CommentEntity

  datatype CommentDTO = CommentDTO(
    id: Option<int>,
    content: string,
    parentId: Option<int>,
    createdAt: Option<Stamp>,
    updatedAt: Option<Stamp>)

  /** CommentReadModel: the flat view; its `id` field is a required integer. */
  datatype CommentReadModel = CommentReadModel(
    id: int,
    content: string,
    parentId: Option<int>,
    createdAt: Option<Stamp>,
    updatedAt: Option<Stamp>)

  /** to_entity: all five columns copied; the entity receives no children. */
  function ToEntity(d: CommentDTO): (c: Comment)
    ensures c.id == d.id && c.content == d.content && c.parentId == d.parentId
    ensures c.createdAt == d.createdAt && c.updatedAt == d.updatedAt
    ensures c.children == []
  {
    Comment(d.content, d.id, d.parentId, d.createdAt, d.updatedAt, [])
  }

  /** to_read_model: the same five columns; pydantic refuses a missing id. */
  function ToReadModel(d: CommentDTO): (r: Result<CommentReadModel, Error>)
    ensures r.Ok? <==> d.id.Some?
    ensures r.Err? ==> r.error == ValidationError
    ensures r.Ok? ==>
      && r.value.id == d.id.value && r.value.content == d.content && r.value.parentId == d.parentId
      && r.value.createdAt == d.createdAt && r.value.updatedAt == d.updatedAt
  {
    if d.id.None? then Err(ValidationError)
    else Ok(CommentReadModel(d.id.value, d.content, d.parentId, d.createdAt, d.updatedAt))
  }

  /** from_entity: all five fields copied, the parent id included. */
  function FromEntity(c: Comment): (d: CommentDTO)
    ensures d.id == c.id && d.content == c.content && d.parentId == c.parentId
    ensures d.createdAt == c.createdAt && d.updatedAt == c.updatedAt
  {
    CommentDTO(c.id, c.content, c.parentId, c.createdAt, c.updatedAt)
  }

  /** Entity to table object and back loses nothing but the children. */
  lemma EntityRoundTrip(c: Comment)
    ensures ToEntity(FromEntity(c)) == c.(children := [])
  {
  }

  /** Table object to entity and back is the identity. */
  lemma TableRoundTrip(d: CommentDTO)
    ensures FromEntity(ToEntity(d)) == d
  {
  }

  /** The read model and the entity of a table object carry the same five fields. */
  lemma ReadModelMatchesEntity(d: CommentDTO)
    requires d.id.Some?
    ensures ToReadModel(d).Ok?
    ensures var m := ToReadModel(d).value; var c := ToEntity(d);
      && c.id == Some(m.id) && c.content == m.content && c.parentId == m.parentId
      && c.createdAt == m.createdAt && c.updatedAt == m.updatedAt
  {
  }
}

=== FILE: comment_entity.dfy ===
/**
  The comment entity (app/domain/comment/entity.py). The tree builder also
  hangs a `children` list on it; a node that never received one is modelled
  with `[]`, the default the read view gives it.
 */
module CommentEntity {
  import opened Wrappers
  import opened Stamps

  datatype Comment = Comment(
    content: string,
    id: Option<int>,
    parentId: Option<int>,
    createdAt: Option<Stamp>,
    updatedAt: Option<Stamp>,
    children: seq<Comment>)

  /** Every node of the tree carries an id. */
  predicate HasIds(c: Comment)
    decreases c
  {
    c.id.Some? && forall i :: 0 <= i < |c.children| ==> HasIds(c.children[i])
  }

  /** No node of the tree carries a parent id. */
  ghost predicate Parentless(c: Comment)
    decreases c
  {
    c.parentId.None? && forall i :: 0 <= i < |c.children| ==> Parentless(c.children[i])
  }

  /** The ids present anywhere in the tree. */
  ghost function Ids(c: Comment): set<int>
    decreases c
  {
    (if c.id.Some? then {c.id.value} else {})
    + UnionAll(seq(|c.children|, i requires 0 <= i < |c.children| => Ids(c.children[i])))
  }

  ghost function UnionAll(ss: seq<set<int>>): (u: set<int>)
    ensures forall x :: x in u <==> exists i :: 0 <= i < |ss| && x in ss[i]
  {
    if |ss| == 0 then {}
    else
      var u := ss[0] + UnionAll(ss[1..]);
      assert forall x :: x in u ==> exists i :: 0 <= i < |ss| && x in ss[i] by {
        forall x | x in u ensures exists i :: 0 <= i < |ss| && x in ss[i] {
          if x !in ss[0] {
            var j :| 0 <= j < |ss[1..]| && x in ss[1..][j];
            assert x in ss[j + 1];
          }
        }
      }
      assert forall x :: (exists i :: 0 <= i < |ss| && x in ss[i]) ==> x in u by {
        forall x | exists i :: 0 <= i < |ss| && x in ss[i] ensures x in u {
          var i :| 0 <= i < |ss| && x in ss[i];
          if i > 0 {
            assert x in ss[1..][i - 1];
          }
        }
      }
      u
  }

  /** Nesting depth: a leaf has depth 1. */
  ghost function Depth(c: Comment): nat
    decreases c
  {
    1 + MaxOf(seq(|c.children|, i requires 0 <= i < |c.children| => Depth(c.children[i])))
  }

  ghost function MaxOf(s: seq<nat>): (m: nat)
    ensures forall i :: 0 <= i < |s| ==> s[i] <= m
    ensures |s| == 0 ==> m == 0
    ensures |s| > 0 ==> exists i :: 0 <= i < |s| && s[i] == m
  {
    if |s| == 0 then 0
    else
      var rest := MaxOf(s[1..]);
      assert forall i :: 1 <= i < |s| ==> s[i] == s[1..][i - 1];
      if s[0] >= rest then s[0]
      else
        assert exists i :: 1 <= i < |s| && s[i] == rest by {
          var j :| 0 <= j < |s[1..]| && s[1..][j] == rest;
          assert s[j + 1] == rest;
        }
        rest
  }

  /** An id is in a tree iff it is the root's or lies in some child's tree. */
  lemma IdsUnfold(c: Comment, x: int)
    ensures x in Ids(c) <==> c.id == Some(x) || exists i :: 0 <= i < |c.children| && x in Ids(c.children[i])
  {
    var parts := seq(|c.children|, i requires 0 <= i < |c.children| => Ids(c.children[i]));
    assert Ids(c) == (if c.id.Some? then {c.id.value} else {}) + UnionAll(parts);
    if x in UnionAll(parts) {
      var i :| 0 <= i < |parts| && x in parts[i];
      assert x in Ids(c.children[i]);
    }
    if exists i :: 0 <= i < |c.children| && x in Ids(c.children[i]) {
      var i :| 0 <= i < |c.children| && x in Ids(c.children[i]);
      assert x in parts[i];
    }
  }

  lemma DepthLeaf(c: Comment)
    requires c.children == []
    ensures Depth(c) == 1
  {
    assert seq(|c.children|, i requires 0 <= i < |c.children| => Depth(c.children[i])) == [];
  }

  lemma DepthOnlyChild(c: Comment)
    requires |c.children| == 1
    ensures Depth(c) == 1 + Depth(c.children[0])
  {
    assert seq(|c.children|, i requires 0 <= i < |c.children| => Depth(c.children[i])) == [Depth(c.children[0])];
  }
}

=== FILE: comment_query.dfy ===
/** CommentQueryUseCase (app/usecase/comment/usecase/query.py). Queries never change the store. */
module CommentQueries {
  import opened Wrappers
  import opened Keys
  import opened Errors
  import opened CommentEntity
  import opened CommentData
  import opened CommentRepository
  import CommentViews

  /** fetch_one: the view of the comment's tree, or CommentDoesNotExist. */
  function FetchOne(rows: Rows, id: int, fault: bool): (r: Result<CommentViews.CommentReadDTO, Error>)
    requires WellFormed(rows)
    ensures fault ==> r == Err(StorageFailure)
    ensures !fault && id !in rows ==> r == Err(CommentDoesNotExist)
    ensures !fault && id in rows ==> r.Ok?
    ensures r.Ok? ==>
      && id in rows
      && r.value.id == id
      && r.value.content == rows[id].content
      && r.value.createdAt == rows[id].createdAt
      && r.value.updatedAt == rows[id].updatedAt
      && r.value == CommentViews.View(Tree(rows, id))
  {
    match Find(rows, id, fault)
    case Err(e) => Err(e)
    case Ok(None) => Err(CommentDoesNotExist)
    case Ok(Some(c)) => CommentViews.FromEntity(c)
  }

  /** fetch_one as written: the view step fails on a comment without replies. */
  function FetchOneAsWritten(rows: Rows, id: int, fault: bool): (r: Result<CommentViews.CommentReadDTO, Error>)
    requires WellFormed(rows)
    ensures fault ==> r == Err(StorageFailure)
    ensures !fault && id !in rows ==> r == Err(CommentDoesNotExist)
    ensures r.Ok? ==> id in rows && r == FetchOne(rows, id, fault)
  {
    match Find(rows, id, fault)
    case Err(e) => Err(e)
    case Ok(None) => Err(CommentDoesNotExist)
    case Ok(Some(c)) => CommentViews.FromEntityAsWritten(c)
  }

  /**
    The discrepancy: a stored comment without replies, which fetch_one is
    meant to show with an empty children list, fails as written.
   */
  lemma LeafFetchAsWritten(rows: Rows, id: int)
    requires WellFormed(rows) && id in rows
    requires ChildSet(rows, id) == {}
    ensures FetchOneAsWritten(rows, id, false) == Err(MissingAttribute)
    ensures FetchOne(rows, id, false).Ok? && FetchOne(rows, id, false).value.children == []
  {
    assert |Tree(rows, id).children| == 0;
  }

  /** Away from comments without replies, the as-written fetch_one agrees with the intended one. */
  lemma FetchAsWrittenOffLeaves(rows: Rows, id: int, fault: bool)
    requires WellFormed(rows)
    requires fault || id !in rows || ChildSet(rows, id) != {}
    ensures FetchOneAsWritten(rows, id, fault) == FetchOne(rows, id, fault)
  {
    if !fault && id in rows {
      NoMembers(ChildSet(rows, id));
      var j :| j in ChildSet(rows, id);
      assert j in ChildIds(rows, id);
    }
  }

  /** fetch_all: one view per comment find_all returns, in its order. */
  function FetchAll(rows: Rows, keys: seq<int>, fault: bool): (r: Result<seq<CommentViews.CommentReadDTO>, Error>)
    requires WellFormed(rows)
    requires forall i :: 0 <= i < |keys| ==> keys[i] in rows
    ensures fault ==> r == Err(StorageFailure)
    ensures !fault ==> r.Ok?
    ensures r.Ok? ==>
      && |r.value| == |keys|
      && forall i :: 0 <= i < |keys| ==>
        r.value[i].id == keys[i] && r.value[i] == CommentViews.View(Tree(rows, keys[i]))
  {
    match FindAll(rows, keys, fault)
    case Err(e) => Err(e)
    case Ok(found) =>
      Ok(seq(|found|, i requires 0 <= i < |found| => CommentViews.View(found[i])))
  }

  /** count: the repository's count, every row included. */
  function Count(rows: Rows): (n: nat)
    ensures n == |rows|
  {
    CommentRepository.Count(rows)
  }
}

=== FILE: comment_read_dto.dfy ===
/**
  CommentReadDTO (app/usecase/comment/dto/query.py): the nested view of a
  comment tree. It has no parent id, its children default to the empty list,
  and its `id` is a required integer, so pydantic refuses a node without one.
 */
module CommentViews {
  import opened Wrappers
  import opened Stamps
  import opened Errors
  import opened CommentEntity

  datatype CommentReadDTO = CommentReadDTO(
    id: int,
    content: string,
    children: seq<CommentReadDTO>,
    createdAt: Option<Stamp>,
    updatedAt: Option<Stamp>)

  /** The view of a tree every node of which has an id. */
  function View(c: Comment): (v: CommentReadDTO)
    requires HasIds(c)
    ensures v.id == c.id.value && v.content == c.content
    ensures v.createdAt == c.createdAt && v.updatedAt == c.updatedAt
    ensures |v.children| == |c.children|
    ensures forall i :: 0 <= i < |c.children| ==> v.children[i] == View(c.children[i])
    decreases c
  {
    CommentReadDTO(c.id.value, c.content,
      seq(|c.children|, i requires 0 <= i < |c.children| => View(c.children[i])),
      c.createdAt, c.updatedAt)
  }

  /** from_entity: the view, or a validation error when some node lacks an id. */
  function FromEntity(c: Comment): (r: Result<CommentReadDTO, Error>)
    ensures r.Ok? <==> HasIds(c)
    ensures r.Ok? ==> r.value == View(c)
    ensures r.Err? ==> r.error == ValidationError
  {
    if HasIds(c) then Ok(View(c)) else Err(ValidationError)
  }

  /**
    from_entity as written, for an entity the tree builder produced: the
    builder attaches the `children` attribute only when the list would be
    non-empty, and from_entity reads it on the root, so a root without
    replies fails on the attribute access. Below the root the ORM reader
    falls back to the `[]` default and no error arises.
   */
  function FromEntityAsWritten(c: Comment): (r: Result<CommentReadDTO, Error>)
    ensures c.children == [] ==> r == Err(MissingAttribute)
    ensures c.children != [] ==> r == FromEntity(c)
  {
    if c.children == [] then Err(MissingAttribute) else FromEntity(c)
  }

  /** The entity a view describes: the view's fields, and no parent id anywhere. */
  function Described(v: CommentReadDTO): (c: Comment)
    ensures c.id == Some(v.id) && c.content == v.content && c.parentId == None
    ensures c.createdAt == v.createdAt && c.updatedAt == v.updatedAt
    ensures |c.children| == |v.children|
    decreases v
  {
    Comment(v.content, Some(v.id), None, v.createdAt, v.updatedAt,
      seq(|v.children|, i requires 0 <= i < |v.children| => Described(v.children[i])))
  }

  /** The view keeps everything of a parentless tree: nothing but the parent id is dropped. */
  lemma {:induction false} ViewRoundTrip(c: Comment)
    requires HasIds(c) && Parentless(c)
    ensures Described(View(c)) == c
    decreases c
  {
    var d := Described(View(c));
    forall i | 0 <= i < |c.children| ensures d.children[i] == c.children[i] {
      ViewRoundTrip(c.children[i]);
    }
    assert d.children == c.children;
  }

  /** Every node of a described view has an id. */
  lemma {:induction false} DescribedHasIds(v: CommentReadDTO)
    ensures HasIds(Described(v)) && Parentless(Described(v))
    decreases v
  {
    forall i | 0 <= i < |v.children|
      ensures HasIds(Described(v).children[i]) && Parentless(Described(v).children[i])
    {
      DescribedHasIds(v.children[i]);
    }
  }

  /** A view is the view of the entity it describes. */
  lemma {:induction false} DescribedRoundTrip(v: CommentReadDTO)
    ensures HasIds(Described(v))
    ensures View(Described(v)) == v
    decreases v
  {
    DescribedHasIds(v);
    var w := View(Described(v));
    forall i | 0 <= i < |v.children| ensures w.children[i] == v.children[i] {
      DescribedRoundTrip(v.children[i]);
    }
    assert w.children == v.children;
  }
}

=== FILE: comment_repository.dfy ===
/**
  CommentRepository (app/infrastructure/comment/repository.py) over a
  map-backed store. `fault` stands for a failure of the database session;
  a failed write leaves the store as it was and the error reaches the caller.
 */
module CommentRepository {
  import opened Wrappers
  import opened Stamps
  import opened Keys
  import opened Errors
  import opened CommentEntity
  import opened CommentData

  /** find: the tree of the row with that key, or `None` when there is none. */
  function Find(rows: Rows, id: int, fault: bool): (r: Result<Option<Comment>, Error>)
    requires WellFormed(rows)
    ensures fault ==> r == Err(StorageFailure)
    ensures !fault ==> r.Ok?
    ensures !fault ==> (r.value.None? <==> id !in rows)
    ensures r.Ok? && r.value.Some? ==> id in rows && r.value.value == Tree(rows, id)
  {
    if fault then Err(StorageFailure)
    else if id in rows then Ok(Some(Tree(rows, id)))
    else Ok(None)
  }

  /**
    The row the database holds after inserting `d` under key `k`: the key
    becomes the id, and a missing `created_at` takes the column default.
   */
  function Persist(d: CommentDO, k: int, defaultStamp: Stamp): (row: CommentDO)
    ensures row.id == Some(k) && row.content == d.content && row.parentId == d.parentId
    ensures row.createdAt == Some(GetOr(d.createdAt, defaultStamp)) && row.updatedAt == d.updatedAt
  {
    d.(id := Some(k), createdAt := Some(GetOr(d.createdAt, defaultStamp)))
  }

  /** Adding a parentless row under a fresh key keeps the store valid and gives the row no replies. */
  lemma InsertKeepsValid(rows: Rows, k: int, row: CommentDO)
    requires Valid(rows) && k !in rows
    requires row.id == Some(k) && row.parentId == None
    ensures Valid(rows[k := row])
    ensures ChildIds(rows[k := row], k) == []
    ensures |rows[k := row]| == |rows| + 1
  {
    var rows' := rows[k := row];
    assert rows'.Keys == rows.Keys + {k};
    forall j | j in rows'
      ensures rows'[j].id == Some(j)
      ensures rows'[j].parentId.Some? ==> rows'[j].parentId.value < j && rows'[j].parentId.value in rows'
      ensures rows'[j].parentId != Some(k)
    {
      if j != k {
        assert rows'[j] == rows[j];
      }
    }
    NoMembers(ChildSet(rows', k));
    assert |ChildIds(rows', k)| == 0;
  }

  /** The insert branch of save, for an entity whose key `k` is free. */
  function Insert(rows: Rows, c: Comment, k: int, defaultStamp: Stamp): (out: Written<Rows, Option<Comment>>)
    requires Valid(rows) && k !in rows
    ensures Valid(out.state)
    ensures out.state.Keys == rows.Keys + {k}
    ensures |out.state| == |rows| + 1
    ensures forall j :: j in rows ==> out.state[j] == rows[j]
    ensures out.state[k] == Persist(CommentData.FromEntity(c), k, defaultStamp)
    ensures out.state[k].content == c.content && out.state[k].parentId == None
    ensures out.state[k].createdAt == Some(GetOr(c.createdAt, defaultStamp)) && out.state[k].updatedAt == c.updatedAt
    ensures out.result == Ok(Some(Tree(out.state, k)))
    ensures out.result.value.value.children == []
  {
    var row := Persist(CommentData.FromEntity(c), k, defaultStamp);
    InsertKeepsValid(rows, k, row);
    var rows' := rows[k := row];
    Written(rows', Ok(Some(Tree(rows', k))))
  }

  /**
    from_entity then to_entity: a comment written under a fresh key comes
    back as a root without replies, with its content and update time, the
    key as its id, and the column default when it had no creation time.
   */
  lemma EntityThroughTable(rows: Rows, c: Comment, k: int, defaultStamp: Stamp)
    requires Valid(rows) && k !in rows
    ensures WellFormed(rows[k := Persist(CommentData.FromEntity(c), k, defaultStamp)])
    ensures CommentData.ToEntity(rows[k := Persist(CommentData.FromEntity(c), k, defaultStamp)], k)
      == c.(id := Some(k), parentId := None, createdAt := Some(GetOr(c.createdAt, defaultStamp)), children := [])
  {
    var row := Persist(CommentData.FromEntity(c), k, defaultStamp);
    InsertKeepsValid(rows, k, row);
    var t := Tree(rows[k := row], k);
    assert t.children == [];
  }

  /**
    save: an entity without a (truthy) id is inserted and its tree returned;
    one with an id takes the update branch, which does nothing.
   */
  function Save(rows: Rows, c: Comment, defaultStamp: Stamp, fault: bool): (out: Written<Rows, Option<Comment>>)
    requires Valid(rows)
    ensures Valid(out.state)
    ensures Truthy(c.id) ==> out == Written(rows, Ok(None))
    ensures out.result.Err? ==> out.state == rows
    ensures !Truthy(c.id) && fault ==> out.result == Err(StorageFailure)
    ensures !Truthy(c.id) && !fault ==>
      (out.result == Err(IntegrityError) <==> c.id == Some(0) && 0 in rows)
    ensures !Truthy(c.id) && !fault && !(c.id == Some(0) && 0 in rows) ==> out.result.Ok?
    ensures !Truthy(c.id) && out.result.Ok? ==>
      InsertKey(rows.Keys, c.id) !in rows && out == Insert(rows, c, InsertKey(rows.Keys, c.id), defaultStamp)
  {
    if Truthy(c.id) then Written(rows, Ok(None))
    else if fault then Written(rows, Err(StorageFailure))
    else
      var k := InsertKey(rows.Keys, c.id);
      if k in rows then Written(rows, Err(IntegrityError))
      else Insert(rows, c, k, defaultStamp)
  }

  /** The store after deleting row `id`: replies to it lose their parent id. */
  function Detach(rows: Rows, id: int): (rows': Rows)
    ensures rows'.Keys == rows.Keys - {id}
    ensures forall j :: j in rows' ==>
      rows'[j] == (if rows[j].parentId == Some(id) then rows[j].(parentId := None) else rows[j])
  {
    map j | j in rows.Keys - {id} :: if rows[j].parentId == Some(id) then rows[j].(parentId := None) else rows[j]
  }

  /**
    remove: deletes the row and, as the plain `children` relationship does
    on delete, sets the `parent_id` of its replies to NULL. A missing key is
    a silent no-op.
   */
  function Remove(rows: Rows, id: int): (out: Written<Rows, ()>)
    requires Valid(rows)
    ensures Valid(out.state)
    ensures out.result == Ok(())
    ensures id !in rows ==> out.state == rows
    ensures id !in out.state
    ensures id in rows ==> out.state.Keys == rows.Keys - {id} && |out.state| == |rows| - 1
    ensures forall j :: j in out.state ==>
      && j in rows
      && out.state[j].id == rows[j].id
      && out.state[j].content == rows[j].content
      && out.state[j].createdAt == rows[j].createdAt
      && out.state[j].updatedAt == rows[j].updatedAt
      && out.state[j].parentId == (if rows[j].parentId == Some(id) then None else rows[j].parentId)
  {
    if id !in rows then Written(rows, Ok(()))
    else
      var rows' := Detach(rows, id);
      assert |rows'.Keys| == |rows.Keys - {id}|;
      Written(rows', Ok(()))
  }

  /**
    find_all, which the use case calls but the repository does not define:
    `keys` stands for whichever stored rows it returns, in its order.
   */
  function FindAll(rows: Rows, keys: seq<int>, fault: bool): (r: Result<seq<Comment>, Error>)
    requires WellFormed(rows)
    requires forall i :: 0 <= i < |keys| ==> keys[i] in rows
    ensures fault ==> r == Err(StorageFailure)
    ensures !fault ==> r.Ok? && |r.value| == |keys|
    ensures r.Ok? ==> forall i :: 0 <= i < |keys| ==> r.value[i] == Tree(rows, keys[i])
  {
    if fault then Err(StorageFailure)
    else Ok(seq(|keys|, i requires 0 <= i < |keys| => Tree(rows, keys[i])))
  }

  /** count: the number of stored rows, replies included. */
  function Count(rows: Rows): (n: nat)
    ensures n == |rows.Keys|
  {
    |rows|
  }

  /** After a delete the removed row is nobody's reply any more. */
  lemma RemovedLeavesEveryChildList(rows: Rows, id: int, k: int)
    requires Valid(rows) && k in Remove(rows, id).state
    ensures id !in ChildIds(Remove(rows, id).state, k)
  {
  }

  /** A former reply of a deleted row survives it, now as a root. */
  lemma RemoveKeepsReplies(rows: Rows, id: int, j: int)
    requires Valid(rows) && id in rows && j in rows && rows[j].parentId == Some(id)
    ensures j in Remove(rows, id).state
    ensures Remove(rows, id).state[j] == rows[j].(parentId := None)
  {
  }
}

=== FILE: errors.dfy ===
/** The exceptions the modelled code raises, and the result of a store write. */
module Errors {
  import opened Wrappers

  datatype Error =
    | CommentDoesNotExist   // CommentDoesNotExistError
    | UserDoesNotExist      // UserDoesNotExistError
    | UserIsAlreadyExists   // UserIsAlreadyExistsError
    | AuthenticateError     // wrong password
    | IntegrityError        // a primary-key or unique constraint refused the commit
    | MultipleResultsFound  // `Query.one()` matched more than one row
    | StorageFailure        // any other failure of the database session
    | ValidationError       // pydantic refused to build a view
    | MissingAttribute      // a method the object does not define was called
    | InvalidEmail          // the Email value object refused an address (ValueError)

  /** The store after an operation, and what the operation returned or raised. */
  datatype Written<S, T> = Written(state: S, result: Result<T, Error>)
}

=== FILE: keys.dfy ===
/**
  Integer primary keys: Python truthiness of an optional id, ascending
  enumeration of a finite key set, and the key the database hands out next.
 */
module Keys {
  import opened Wrappers

  /** `if not x.id` in the repositories: both `None` and `0` count as "no id". */
  predicate Truthy(id: Option<int>)
  {
    id.Some? && id.value != 0
  }

  predicate StrictlyIncreasing(s: seq<int>)
  {
    forall i, j :: 0 <= i < j < |s| ==> s[i] < s[j]
  }

  lemma {:induction false} MinExists(s: set<int>)
    requires s != {}
    ensures exists m :: m in s && forall x :: x in s ==> m <= x
    decreases s
  {
    NoMembers(s);
    var y :| y in s;
    var rest := s - {y};
    if rest == {} {
      forall x | x in s ensures y <= x {
        assert x !in rest;
      }
    } else {
      MinExists(rest);
      var m :| m in rest && forall x :: x in rest ==> m <= x;
      var w := if y < m then y else m;
      forall x | x in s ensures w <= x {
        if x != y {
          assert x in rest;
        }
      }
      assert w in s;
    }
  }

  /** A set with no members is the empty set. */
  lemma NoMembers(s: set<int>)
    ensures (forall x :: x !in s) ==> s == {}
  {
    if forall x :: x !in s {
      assert forall x :: x in s <==> x in {};
    }
  }

  /** The least element of a non-empty key set. */
  function Min(s: set<int>): (m: int)
    requires s != {}
    ensures m in s
    ensures forall x :: x in s ==> m <= x
  {
    MinExists(s);
    var m :| m in s && forall x :: x in s ==> m <= x;
    m
  }

  /** The keys of `s` in ascending order, each once. */
  function SortedKeys(s: set<int>): (r: seq<int>)
    ensures |r| == |s|
    ensures forall x :: x in r <==> x in s
    ensures StrictlyIncreasing(r)
    decreases s
  {
    if s == {} then []
    else
      var m := Min(s);
      [m] + SortedKeys(s - {m})
  }

  /** A singleton key set enumerates as the one-element sequence. */
  lemma SortedSingleton(s: set<int>, k: int)
    requires s == {k}
    ensures SortedKeys(s) == [k]
  {
    var r := SortedKeys(s);
    assert |r| == 1;
    assert r[0] in s;
  }

  /**
    The key SQLite assigns to a row inserted without one: one more than the
    largest key in use, or 1 in an empty table.
   */
  function NextKey(s: set<int>): (k: int)
    ensures k !in s
    ensures forall x :: x in s ==> x < k
    ensures s == {} ==> k == 1
    ensures s != {} ==> k - 1 in s
  {
    var ks := SortedKeys(s);
    if |ks| == 0 then 1
    else
      assert forall x :: x in s ==> x <= ks[|ks| - 1] by {
        forall x | x in s ensures x <= ks[|ks| - 1] {
          var i :| 0 <= i < |ks| && ks[i] == x;
          assert i == |ks| - 1 || ks[i] < ks[|ks| - 1];
        }
      }
      ks[|ks| - 1] + 1
  }

  /**
    The key an insert lands on when the entity's id is falsy: an explicit
    id 0 still goes into the INSERT; otherwise the database picks the next key.
   */
  function InsertKey(keys: set<int>, id: Option<int>): (k: int)
    ensures id == Some(0) ==> k == 0
    ensures id != Some(0) ==> k !in keys && forall j :: j in keys ==> j < k
    ensures id != Some(0) && keys == {} ==> k == 1
    ensures id != Some(0) && keys != {} ==> k - 1 in keys
    ensures id != Some(0) ==> k == NextKey(keys)
  {
    if id == Some(0) then 0 else NextKey(keys)
  }
}

=== FILE: stamps.dfy ===
/**
  Timestamps. Datetimes are opaque ordered values here, written as integers;
  `Option<Stamp>` is a nullable `DateTime` column.
 */
module Stamps {
  import opened Wrappers

  type Stamp = int

  /**
    Ascending `ORDER BY` on a nullable column as SQLite does it: NULL sorts
    before every value.
   */
  predicate NoLater(a: Option<Stamp>, b: Option<Stamp>)
  {
    a.None? || (b.Some? && a.value <= b.value)
  }

  lemma NoLaterTotal(a: Option<Stamp>, b: Option<Stamp>)
    ensures NoLater(a, b) || NoLater(b, a)
  {
  }

  lemma NoLaterTransitive(a: Option<Stamp>, b: Option<Stamp>, c: Option<Stamp>)
    requires NoLater(a, b) && NoLater(b, c)
    ensures NoLater(a, c)
  {
  }
}

=== FILE: user_command.dfy ===
/**
  UserCommandUseCase (app/usecase/user/usecase/command.py). Passwords are
  stored through `hash`, which stands for the password-hashing function.
 */
module UserCommands {
  import opened Wrappers
  import opened Stamps
  import opened Keys
  import opened Errors
  import opened UserEntity
  import opened UserRepository
  import opened UserViews

  datatype UserRegisterDTO = UserRegisterDTO(username: string, password: string, email: string)

  datatype UserCreateDTO = UserCreateDTO(
    username: string,
    password: string,
    email: string,
    isActive: bool,
    isSuperuser: bool)

  /** The view of what save returned; save returning nothing would fail on the attribute access. */
  function ViewOfSaved(saved: Option<User>): (r: Result<UserReadDTO, Error>)
    ensures saved.None? ==> r == Err(MissingAttribute)
    ensures saved.Some? ==> r == Ok(ReadView(saved.value))
  {
    match saved
    case None => Err(MissingAttribute)
    case Some(u) => Ok(ReadView(u))
  }

  /** The shared body of register_user and create_user: refuse a duplicate, else save. */
  function AddUser(users: Users, u: User, defaultStamp: Stamp, fault: bool): (out: Written<Users, UserReadDTO>)
    requires Valid(users) && u.id == None
    ensures Valid(out.state)
    ensures out.result.Err? ==> out.state == users
    ensures Exists(users, u) ==> out == Written(users, Err(UserIsAlreadyExists))
    ensures !Exists(users, u) && fault ==> out == Written(users, Err(StorageFailure))
    ensures !Exists(users, u) && !fault ==> out.result.Ok?
    ensures out.result.Ok? ==>
      var k := NextKey(users.Keys);
      && k !in users
      && out.state == users[k := Stored(u, k, defaultStamp)]
      && |out.state| == |users| + 1
      && out.result.value == ReadView(Stored(u, k, defaultStamp))
    ensures out.result.Ok? ==>
      var k := NextKey(users.Keys);
      && out.result.value.id == Some(k)
      && out.state.Keys == users.Keys + {k}
      && (forall j :: j in users ==> out.state[j] == users[j])
      && out.state[k].password == u.password
      && out.result.value.username == u.username && out.result.value.email == u.email
      && out.result.value.isActive == u.isActive && out.result.value.isSuperuser == u.isSuperuser
  {
    if Exists(users, u) then Written(users, Err(UserIsAlreadyExists))
    else
      var saved := Save(users, u, defaultStamp, fault);
      if saved.result.Err? then Written(saved.state, Err(saved.result.error))
      else
        var k := NextKey(users.Keys);
        assert InsertKey(users.Keys, u.id) == k;
        StoredUpdate(users, k, Stored(u, k, defaultStamp));
        Written(saved.state, ViewOfSaved(saved.result.value))
  }

  /**
    AddUser with the e-mail column as UserDO writes it. exists compares the
    column with the bare address, so only a shared username is refused up
    front. The unique constraint compares reprs, and a committed row cannot
    be read back, so nothing ever succeeds.
   */
  function AddUserAsWritten(users: Users, u: User, defaultStamp: Stamp, fault: bool): (out: Written<Users, UserReadDTO>)
    requires Valid(users) && u.id == None
    ensures Valid(out.state)
    ensures out.result.Err?
    ensures Exists(users, u) ==> out == Written(users, Err(UserIsAlreadyExists))
    ensures !Exists(users, u) && fault ==> out == Written(users, Err(StorageFailure))
    ensures !Exists(users, u) && !fault && Clashes(users, u.username, EmailRepr(u.email)) ==>
      out == Written(users, Err(IntegrityError))
    ensures !Exists(users, u) && !fault && !Clashes(users, u.username, EmailRepr(u.email)) ==>
      var k := NextKey(users.Keys);
      && k !in users
      && out.state == users[k := StoredAsWritten(u, k, defaultStamp)]
      && out.result == Err(InvalidEmail)
  {
    if Exists(users, u) then Written(users, Err(UserIsAlreadyExists))
    else
      var saved := SaveAsWritten(users, u, defaultStamp, fault);
      assert InsertKey(users.Keys, u.id) == NextKey(users.Keys);
      match saved.result
      case Err(e) => Written(saved.state, Err(e))
      case Ok(_) => assert false; Written(saved.state, Err(MissingAttribute))
  }

  /**
    As written, a second user with an address already taken passes the
    exists check, and the database refuses the insert instead: IntegrityError,
    not UserIsAlreadyExists. A lookup by that address finds nobody.
   */
  lemma DuplicateEmailAsWritten(users: Users, u: User, v: User, defaultStamp: Stamp)
    requires Valid(users) && u.id == None && v.id == None
    requires !Exists(users, u) && !Clashes(users, u.username, EmailRepr(u.email))
    requires v.email == u.email && v.username != u.username
    requires forall k :: k in users ==> users[k].username != v.username
    ensures AddUserAsWritten(users, u, defaultStamp, false).result == Err(InvalidEmail)
    ensures !Exists(AddUserAsWritten(users, u, defaultStamp, false).state, v)
    ensures FindBy(AddUserAsWritten(users, u, defaultStamp, false).state, Email, u.email, false) == Ok(None)
    ensures var first := AddUserAsWritten(users, u, defaultStamp, false).state;
      AddUserAsWritten(first, v, defaultStamp, false) == Written(first, Err(IntegrityError))
  {
    var k := NextKey(users.Keys);
    var first := AddUserAsWritten(users, u, defaultStamp, false).state;
    assert first == users[k := StoredAsWritten(u, k, defaultStamp)];
    forall j | j in first
      ensures first[j].username != v.username && Field(first[j], Email) != u.email
    {
      if j == k {
        EmailReprDiffers(u.email);
      }
    }
    assert k in first.Keys && first[k].email == EmailRepr(v.email);
  }

  /** With the address itself in the column, the same second user is refused before any write. */
  lemma DuplicateEmailRefused(users: Users, u: User, v: User, defaultStamp: Stamp)
    requires Valid(users) && u.id == None && v.id == None
    requires !Exists(users, u)
    requires v.email == u.email
    ensures AddUser(users, u, defaultStamp, false).result.Ok?
    ensures var first := AddUser(users, u, defaultStamp, false).state;
      FindBy(first, Email, u.email, false) == Ok(Some(first[NextKey(users.Keys)]))
    ensures var first := AddUser(users, u, defaultStamp, false).state;
      AddUser(first, v, defaultStamp, false) == Written(first, Err(UserIsAlreadyExists))
  {
    var k := NextKey(users.Keys);
    var first := AddUser(users, u, defaultStamp, false).state;
    assert first[k].email == u.email;
    assert k in first;
  }

  /** The entity register_user builds: hashed password, entity defaults for the flags. */
  function RegisteredUser(data: UserRegisterDTO, createdAt: Option<Stamp>, hash: string -> string): (u: User)
    ensures u.id == None && u.username == data.username && u.email == data.email
    ensures u.password == hash(data.password)
    ensures u.isActive == true && u.isSuperuser == false
    ensures u.createdAt == createdAt && u.updatedAt == None
  {
    User(None, data.username, hash(data.password), data.email, DefaultActive, DefaultSuperuser, createdAt, None)
  }

  /** The entity create_user builds: hashed password, the caller's flags. */
  function CreatedUser(data: UserCreateDTO, createdAt: Option<Stamp>, hash: string -> string): (u: User)
    ensures u.id == None && u.username == data.username && u.email == data.email
    ensures u.password == hash(data.password)
    ensures u.isActive == data.isActive && u.isSuperuser == data.isSuperuser
    ensures u.createdAt == createdAt && u.updatedAt == None
  {
    User(None, data.username, hash(data.password), data.email, data.isActive, data.isSuperuser, createdAt, None)
  }

  /** register_user: a new ordinary, active user, or UserIsAlreadyExists. */
  function RegisterUser(users: Users, data: UserRegisterDTO, createdAt: Option<Stamp>, hash: string -> string,
                        defaultStamp: Stamp, fault: bool): (out: Written<Users, UserReadDTO>)
    requires Valid(users)
    ensures Valid(out.state)
    ensures out.result.Err? ==> out.state == users
    ensures Clashes(users, data.username, data.email) ==> out == Written(users, Err(UserIsAlreadyExists))
    ensures !Clashes(users, data.username, data.email) && !fault ==> out.result.Ok?
    ensures out.result.Ok? ==>
      var v := out.result.value;
      && v.id.Some? && v.id.value !in users
      && out.state.Keys == users.Keys + {v.id.value}
      && (forall k :: k in users ==> out.state[k] == users[k])
      && out.state[v.id.value] == Stored(RegisteredUser(data, createdAt, hash), v.id.value, defaultStamp)
      && v == ReadView(out.state[v.id.value])
      && out.state[v.id.value].password == hash(data.password)
      && out.state[v.id.value].isActive == true && out.state[v.id.value].isSuperuser == false
      && v.username == data.username && v.email == data.email
      && v.isActive == true && v.isSuperuser == false
  {
    var u := RegisteredUser(data, createdAt, hash);
    assert Exists(users, u) == Clashes(users, data.username, data.email);
    AddUser(users, u, defaultStamp, fault)
  }

  /** create_user: a new user with the caller's flags, or UserIsAlreadyExists. */
  function CreateUser(users: Users, data: UserCreateDTO, createdAt: Option<Stamp>, hash: string -> string,
                      defaultStamp: Stamp, fault: bool): (out: Written<Users, UserReadDTO>)
    requires Valid(users)
    ensures Valid(out.state)
    ensures out.result.Err? ==> out.state == users
    ensures Clashes(users, data.username, data.email) ==> out == Written(users, Err(UserIsAlreadyExists))
    ensures !Clashes(users, data.username, data.email) && !fault ==> out.result.Ok?
    ensures out.result.Ok? ==>
      var v := out.result.value;
      && v.id.Some? && v.id.value !in users
      && out.state.Keys == users.Keys + {v.id.value}
      && (forall k :: k in users ==> out.state[k] == users[k])
      && out.state[v.id.value] == Stored(CreatedUser(data, createdAt, hash), v.id.value, defaultStamp)
      && v == ReadView(out.state[v.id.value])
      && out.state[v.id.value].password == hash(data.password)
      && out.state[v.id.value].isActive == data.isActive && out.state[v.id.value].isSuperuser == data.isSuperuser
      && v.username == data.username && v.email == data.email
      && v.isActive == data.isActive && v.isSuperuser == data.isSuperuser
  {
    var u := CreatedUser(data, createdAt, hash);
    assert Exists(users, u) == Clashes(users, data.username, data.email);
    AddUser(users, u, defaultStamp, fault)
  }

  /**
    register_user as written: building the entity reads `data.created_at`,
    which UserRegisterDTO does not declare. AttributeError comes before
    exists and before any write.
   */
  function RegisterUserAsWritten(users: Users, data: UserRegisterDTO): (out: Written<Users, UserReadDTO>)
    requires Valid(users)
    ensures out.state == users
    ensures out.result == Err(MissingAttribute)
  {
    Written(users, Err(MissingAttribute))
  }

  /** create_user as written: the same missing `created_at` on UserCreateDTO. */
  function CreateUserAsWritten(users: Users, data: UserCreateDTO): (out: Written<Users, UserReadDTO>)
    requires Valid(users)
    ensures out.state == users
    ensures out.result == Err(MissingAttribute)
  {
    Written(users, Err(MissingAttribute))
  }

  /** A registration the intended use case stores fails as written and writes nothing. */
  lemma RegistrationAsWrittenFails(users: Users, data: UserRegisterDTO, createdAt: Option<Stamp>,
                                   hash: string -> string, defaultStamp: Stamp)
    requires Valid(users) && !Clashes(users, data.username, data.email)
    ensures RegisterUser(users, data, createdAt, hash, defaultStamp, false).result.Ok?
    ensures RegisterUser(users, data, createdAt, hash, defaultStamp, false).state != users
    ensures RegisterUserAsWritten(users, data) == Written(users, Err(MissingAttribute))
  {
    var out := RegisterUser(users, data, createdAt, hash, defaultStamp, false);
    assert out.result.value.id.value in out.state;
  }

  /** A creation the intended use case stores fails as written and writes nothing. */
  lemma CreationAsWrittenFails(users: Users, data: UserCreateDTO, createdAt: Option<Stamp>,
                               hash: string -> string, defaultStamp: Stamp)
    requires Valid(users) && !Clashes(users, data.username, data.email)
    ensures CreateUser(users, data, createdAt, hash, defaultStamp, false).result.Ok?
    ensures CreateUser(users, data, createdAt, hash, defaultStamp, false).state != users
    ensures CreateUserAsWritten(users, data) == Written(users, Err(MissingAttribute))
  {
    var out := CreateUser(users, data, createdAt, hash, defaultStamp, false);
    assert out.result.value.id.value in out.state;
  }

  /** delete_user: remove. */
  function DeleteUser(users: Users, id: int): (out: Written<Users, ()>)
    requires Valid(users)
    ensures out == Remove(users, id)
    ensures id !in users ==> out.state == users
    ensures out.state.Keys == users.Keys - {id}
  {
    Remove(users, id)
  }

  datatype UserCommand =
    | Register(registration: UserRegisterDTO, registeredAt: Option<Stamp>, registerFault: bool)
    | Create(creation: UserCreateDTO, createdAt: Option<Stamp>, createFault: bool)
    | Delete(id: int)

  /** Runs the commands in order: no two users ever share a username or an e-mail. */
  function Replay(users: Users, cmds: seq<UserCommand>, hash: string -> string, defaultStamp: Stamp): (r: Users)
    requires Valid(users)
    ensures Valid(r)
    decreases |cmds|
  {
    if |cmds| == 0 then users
    else
      var next := match cmds[0]
        case Register(data, at, fault) => RegisterUser(users, data, at, hash, defaultStamp, fault).state
        case Create(data, at, fault) => CreateUser(users, data, at, hash, defaultStamp, fault).state
        case Delete(id) => DeleteUser(users, id).state;
      Replay(next, cmds[1..], hash, defaultStamp)
  }
}

=== FILE: user_dto.dfy ===
/** The user views (app/usecase/user/dto/query.py): field copies of the entity. */
module UserViews {
  import opened Wrappers
  import opened Stamps
  import opened UserEntity

  /** UserReadDTO: everything but the password hash. */
  datatype UserReadDTO = UserReadDTO(
    id: Option<int>,
    username: string,
    email: string,
    isActive: bool,
    isSuperuser: bool,
    createdAt: Option<Stamp>,
    updatedAt: Option<Stamp>)

  /** UserLoginDTO: the identity and stored password hash of a logged-in user. */
  datatype UserLoginDTO = UserLoginDTO(
    id: Option<int>,
    username: Option<string>,
    password: string,
    email: Option<string>)

  function ReadView(u: User): (v: UserReadDTO)
    ensures v.id == u.id && v.username == u.username && v.email == u.email
    ensures v.isActive == u.isActive && v.isSuperuser == u.isSuperuser
    ensures v.createdAt == u.createdAt && v.updatedAt == u.updatedAt
  {
    UserReadDTO(u.id, u.username, u.email, u.isActive, u.isSuperuser, u.createdAt, u.updatedAt)
  }

  function LoginView(u: User): (v: UserLoginDTO)
    ensures v.id == u.id && v.username == Some(u.username)
    ensures v.password == u.password && v.email == Some(u.email)
  {
    UserLoginDTO(u.id, Some(u.username), u.password, Some(u.email))
  }
}

=== FILE: user_entity.dfy ===
/**
  The user entity (app/domain/user/entity.py). The e-mail value object is
  represented by the address it wraps (`Email.value`). How UserDO writes it
  to the table is in UserRepository.EmailRepr.
 */
module UserEntity {
  import opened Wrappers
  import opened Stamps

  datatype User = User(
    id: Option<int>,
    username: string,
    password: string,
    email: string,
    isActive: bool,
    isSuperuser: bool,
    createdAt: Option<Stamp>,
    updatedAt: Option<Stamp>)

  /** The entity defaults of `is_active` and `is_superuser`. */
  const DefaultActive: bool := true
  const DefaultSuperuser: bool := false
}

=== FILE: user_query.dfy ===
/**
  UserQueryUseCase (app/usecase/user/usecase/query.py). `verify` stands for
  the password check against the stored hash. Queries never change the table.
 */
module UserQueries {
  import opened Wrappers
  import opened Stamps
  import opened Errors
  import opened UserEntity
  import opened UserRepository
  import opened UserViews

  /** Python truthiness of an optional string argument: `None` and `""` are both falsy. */
  predicate Given(s: Option<string>)
  {
    s.Some? && |s.value| > 0
  }

  /** fetch_one: the user's view, or UserDoesNotExist. */
  function FetchOne(users: Users, id: int, fault: bool): (r: Result<UserReadDTO, Error>)
    ensures fault ==> r == Err(StorageFailure)
    ensures !fault && id !in users ==> r == Err(UserDoesNotExist)
    ensures !fault && id in users ==> r == Ok(ReadView(users[id]))
  {
    match Find(users, id, fault)
    case Err(e) => Err(e)
    case Ok(None) => Err(UserDoesNotExist)
    case Ok(Some(u)) => Ok(ReadView(u))
  }

  /** The lookup authenticate makes: by username when one is given, else by e-mail, else none. */
  function Lookup(users: Users, username: Option<string>, email: Option<string>, fault: bool)
    : (r: Result<Option<User>, Error>)
    ensures !Given(username) && !Given(email) ==> r == Ok(None)
    ensures Given(username) ==> r == FindBy(users, Username, username.value, fault)
    ensures !Given(username) && Given(email) ==> r == FindBy(users, Email, email.value, fault)
  {
    if Given(username) then FindBy(users, Username, username.value, fault)
    else if Given(email) then FindBy(users, Email, email.value, fault)
    else Ok(None)
  }

  /** What authenticate makes of the lookup's outcome. */
  function Conclude(found: Result<Option<User>, Error>, plain: string, verify: (string, string) -> bool)
    : (r: Result<UserLoginDTO, Error>)
    ensures found.Err? ==> r == Err(found.error)
    ensures found == Ok(None) ==> r == Err(UserDoesNotExist)
    ensures found.Ok? && found.value.Some? && !verify(plain, found.value.value.password) ==> r == Err(AuthenticateError)
    ensures r.Ok? ==>
      && found.Ok? && found.value.Some?
      && verify(plain, found.value.value.password)
      && r.value == LoginView(found.value.value)
  {
    match found
    case Err(e) => Err(e)
    case Ok(None) => Err(UserDoesNotExist)
    case Ok(Some(u)) =>
      if !verify(plain, u.password) then Err(AuthenticateError) else Ok(LoginView(u))
  }

  /**
    authenticate, with the lookup by username the use case intends. A success
    names a stored user matched by the lookup-priority rule whose password
    checks out.
   */
  function Authenticate(users: Users, plain: string, username: Option<string>, email: Option<string>,
                        verify: (string, string) -> bool, fault: bool): (r: Result<UserLoginDTO, Error>)
    ensures !Given(username) && !Given(email) ==> r == Err(UserDoesNotExist)
    ensures (Given(username) || Given(email)) && fault ==> r == Err(StorageFailure)
    ensures r.Ok? ==> exists k :: (
      && k in users
      && r.value == LoginView(users[k])
      && verify(plain, users[k].password)
      && (if Given(username) then users[k].username == username.value else users[k].email == email.value))
    ensures Unique(users) && !fault && Given(username) ==>
      (r == Err(UserDoesNotExist) <==> forall k :: k in users ==> users[k].username != username.value)
    ensures Unique(users) && !fault && !Given(username) && Given(email) ==>
      (r == Err(UserDoesNotExist) <==> forall k :: k in users ==> users[k].email != email.value)
  {
    Conclude(Lookup(users, username, email, fault), plain, verify)
  }

  /**
    authenticate as written: the repository has no find_by_username, so a
    login by username fails on the missing attribute before any lookup.
   */
  function AuthenticateAsWritten(users: Users, plain: string, username: Option<string>, email: Option<string>,
                                 verify: (string, string) -> bool, fault: bool): (r: Result<UserLoginDTO, Error>)
    ensures Given(username) ==> r == Err(MissingAttribute)
    ensures !Given(username) ==> r == Authenticate(users, plain, username, email, verify, fault)
  {
    if Given(username) then Err(MissingAttribute)
    else Conclude(Lookup(users, username, email, fault), plain, verify)
  }

  /** When a username is given, the e-mail argument plays no part. */
  lemma UsernameTakesPriority(users: Users, plain: string, username: Option<string>, e1: Option<string>,
                              e2: Option<string>, verify: (string, string) -> bool, fault: bool)
    requires Given(username)
    ensures Authenticate(users, plain, username, e1, verify, fault) == Authenticate(users, plain, username, e2, verify, fault)
  {
  }

  /** A stored user logs in by username with a password that checks out. */
  lemma {:induction false} LoginByUsername(users: Users, k: int, plain: string, email: Option<string>,
                                           verify: (string, string) -> bool)
    requires Valid(users) && k in users && |users[k].username| > 0
    requires verify(plain, users[k].password)
    ensures Authenticate(users, plain, Some(users[k].username), email, verify, false) == Ok(LoginView(users[k]))
  {
    var found := FindBy(users, Username, users[k].username, false);
    assert found.Ok? && found.value.Some?;
  }

  /** A stored user logs in by e-mail when no username is given. */
  lemma {:induction false} LoginByEmail(users: Users, k: int, plain: string, username: Option<string>,
                                        verify: (string, string) -> bool)
    requires Valid(users) && k in users && |users[k].email| > 0 && !Given(username)
    requires verify(plain, users[k].password)
    ensures Authenticate(users, plain, username, Some(users[k].email), verify, false) == Ok(LoginView(users[k]))
  {
    var found := FindBy(users, Email, users[k].email, false);
    assert found.Ok? && found.value.Some?;
  }

  /** A password that does not check out is refused with AuthenticateError. */
  lemma {:induction false} WrongPassword(users: Users, k: int, plain: string, email: Option<string>,
                                         verify: (string, string) -> bool)
    requires Valid(users) && k in users && |users[k].username| > 0
    requires !verify(plain, users[k].password)
    ensures Authenticate(users, plain, Some(users[k].username), email, verify, false) == Err(AuthenticateError)
  {
    var found := FindBy(users, Username, users[k].username, false);
    assert found.Ok? && found.value.Some?;
  }

  /** A password that does not check out is refused with AuthenticateError on the e-mail route too. */
  lemma {:induction false} WrongPasswordByEmail(users: Users, k: int, plain: string, username: Option<string>,
                                                verify: (string, string) -> bool)
    requires Valid(users) && k in users && |users[k].email| > 0 && !Given(username)
    requires !verify(plain, users[k].password)
    ensures Authenticate(users, plain, username, Some(users[k].email), verify, false) == Err(AuthenticateError)
  {
    var found := FindBy(users, Email, users[k].email, false);
    assert found.Ok? && found.value.Some?;
  }

  /** The discrepancy: a login by username that the intended lookup accepts fails as written. */
  lemma UsernameLoginAsWritten(users: Users, k: int, plain: string, verify: (string, string) -> bool)
    requires Valid(users) && k in users && |users[k].username| > 0
    requires verify(plain, users[k].password)
    ensures AuthenticateAsWritten(users, plain, Some(users[k].username), None, verify, false) == Err(MissingAttribute)
    ensures Authenticate(users, plain, Some(users[k].username), None, verify, false) == Ok(LoginView(users[k]))
  {
    LoginByUsername(users, k, plain, None, verify);
  }

  function ReadViews(found: seq<User>): (vs: seq<UserReadDTO>)
    ensures |vs| == |found|
    ensures forall i :: 0 <= i < |found| ==> vs[i] == ReadView(found[i])
  {
    seq(|found|, i requires 0 <= i < |found| => ReadView(found[i]))
  }

  /** `vs` holds the view of every stored user and nothing but such views. */
  ghost predicate ViewsExactly(users: Users, vs: seq<UserReadDTO>)
  {
    && (forall k :: k in users ==> ReadView(users[k]) in vs)
    && (forall v :: v in vs ==> exists k :: k in users && ReadView(users[k]) == v)
  }

  lemma ViewsCoverTable(users: Users, found: seq<User>)
    requires ListsExactly(users, found)
    ensures ViewsExactly(users, ReadViews(found))
  {
    var views := ReadViews(found);
    forall k | k in users ensures ReadView(users[k]) in views {
      var i :| 0 <= i < |found| && found[i] == users[k];
      assert views[i] == ReadView(users[k]);
    }
    forall v | v in views ensures exists k :: k in users && ReadView(users[k]) == v {
      var i :| 0 <= i < |views| && views[i] == v;
      assert found[i] in found;
      var k :| k in users && users[k] == found[i];
      assert ReadView(users[k]) == v;
    }
  }

  lemma ViewsKeepOrder(found: seq<User>)
    requires SortedByCreation(found)
    ensures forall i, j :: 0 <= i < j < |found| ==>
      NoLater(ReadViews(found)[i].createdAt, ReadViews(found)[j].createdAt)
  {
    var vs := ReadViews(found);
    forall i, j | 0 <= i < j < |vs| ensures NoLater(vs[i].createdAt, vs[j].createdAt) {
      assert vs[i].createdAt == found[i].createdAt && vs[j].createdAt == found[j].createdAt;
    }
  }

  /** fetch_all: one view per user find_all returns, in creation order. */
  function FetchAll(users: Users, fault: bool): (r: Result<seq<UserReadDTO>, Error>)
    ensures fault ==> r == Err(StorageFailure)
    ensures !fault ==> r.Ok?
    ensures r.Ok? ==> |r.value| == |users|
    ensures r.Ok? ==> forall i, j :: 0 <= i < j < |r.value| ==> NoLater(r.value[i].createdAt, r.value[j].createdAt)
    ensures r.Ok? ==> ViewsExactly(users, r.value)
  {
    match FindAll(users, fault)
    case Err(e) => Err(e)
    case Ok(found) =>
      ViewsCoverTable(users, found);
      ViewsKeepOrder(found);
      Ok(ReadViews(found))
  }
}

=== FILE: user_repository.dfy ===
/**
  UserRepository (app/infrastructure/user/repository.py) over a map-backed
  `user` table whose `username` and `email` columns are unique.
 */
module UserRepository {
  import opened Wrappers
  import opened Stamps
  import opened Keys
  import opened Errors
  import opened UserEntity

  type Users = map<int, User>

  ghost predicate Keyed(users: Users)
  {
    forall k :: k in users ==> users[k].id == Some(k)
  }

  /** No two stored users share a username or an e-mail. */
  ghost predicate Unique(users: Users)
  {
    forall a, b :: a in users && b in users && a != b ==>
      users[a].username != users[b].username && users[a].email != users[b].email
  }

  ghost predicate Valid(users: Users)
  {
    Keyed(users) && Unique(users)
  }

  /** find: the user with that key, or `None`. */
  function Find(users: Users, id: int, fault: bool): (r: Result<Option<User>, Error>)
    ensures fault ==> r == Err(StorageFailure)
    ensures !fault ==> r.Ok? && (r.value.None? <==> id !in users)
    ensures r.Ok? && r.value.Some? ==> id in users && r.value.value == users[id]
  {
    if fault then Err(StorageFailure)
    else if id in users then Ok(Some(users[id]))
    else Ok(None)
  }

  /** `Query.one()` over the keys a filter matched: none, the one, or an error for several. */
  function One(users: Users, matches: set<int>): (r: Result<Option<User>, Error>)
    requires matches <= users.Keys
    ensures r == Ok(None) <==> matches == {}
    ensures r.Ok? && r.value.Some? ==> forall k :: k in matches ==> users[k] == r.value.value
    ensures r.Ok? && r.value.Some? ==> exists k :: k in matches && users[k] == r.value.value
    ensures r.Err? ==> r.error == MultipleResultsFound
    ensures r.Err? ==> exists a, b :: a in matches && b in matches && a != b
  {
    var ks := SortedKeys(matches);
    NoMembers(matches);
    if |ks| == 0 then Ok(None)
    else if |ks| == 1 then
      assert ks[0] in ks;
      Ok(Some(users[ks[0]]))
    else
      assert ks[0] in ks && ks[1] in ks;
      Err(MultipleResultsFound)
  }

  /** The unique columns a user is looked up by. */
  datatype Column = Username | Email

  function Field(u: User, col: Column): string
  {
    match col
    case Username => u.username
    case Email => u.email
  }

  /**
    `filter_by(<col>=value).one()`, with `NoResultFound` read as `None`.
    With `Email` this is find_by_email. With `Username` it is the lookup the
    query use case calls; the repository class does not define it.
   */
  function FindBy(users: Users, col: Column, value: string, fault: bool): (r: Result<Option<User>, Error>)
    ensures fault ==> r == Err(StorageFailure)
    ensures !fault ==> (r == Ok(None) <==> forall k :: k in users ==> Field(users[k], col) != value)
    ensures r.Ok? && r.value.Some? ==> exists k :: k in users && users[k] == r.value.value && Field(users[k], col) == value
    ensures r.Ok? && r.value.Some? ==> forall k :: k in users && Field(users[k], col) == value ==> users[k] == r.value.value
    ensures Unique(users) && !fault ==> r.Ok?
  {
    if fault then Err(StorageFailure)
    else
      var matches := set k | k in users.Keys && Field(users[k], col) == value;
      NoMembers(matches);
      assert (matches == {}) <==> forall k :: k in users ==> Field(users[k], col) != value by {
        assert forall k :: k in users ==> (k in matches <==> Field(users[k], col) == value);
      }
      One(users, matches)
  }

  /** Some stored user has this username or this e-mail. */
  predicate Clashes(users: Users, username: string, email: string)
  {
    exists k :: k in users.Keys && (users[k].username == username || users[k].email == email)
  }

  /** exists: a stored user shares the username or the e-mail of `u`. */
  function Exists(users: Users, u: User): (b: bool)
    ensures b <==> exists k :: k in users && (users[k].username == u.username || users[k].email == u.email)
  {
    Clashes(users, u.username, u.email)
  }

  /** exists holds exactly when a lookup by the username or by the e-mail finds someone. */
  lemma ExistsIffFindable(users: Users, u: User)
    requires Valid(users)
    ensures FindBy(users, Username, u.username, false).Ok? && FindBy(users, Email, u.email, false).Ok?
    ensures Exists(users, u) <==>
      FindBy(users, Username, u.username, false).value.Some? || FindBy(users, Email, u.email, false).value.Some?
  {
  }

  // ---------------------------------------------------------------------
  // find_all: every user, ordered by created_at ascending.

  ghost predicate SortedByCreation(s: seq<User>)
  {
    forall i, j :: 0 <= i < j < |s| ==> NoLater(s[i].createdAt, s[j].createdAt)
  }

  function InsertByCreation(u: User, s: seq<User>): (r: seq<User>)
    requires SortedByCreation(s)
    ensures SortedByCreation(r)
    ensures multiset(r) == multiset(s) + multiset{u}
    ensures |r| == |s| + 1
    decreases |s|
  {
    if |s| == 0 then [u]
    else if NoLater(u.createdAt, s[0].createdAt) then
      HeadBound(u, s);
      ConsSorted(u, s);
      [u] + s
    else
      NoLaterTotal(u.createdAt, s[0].createdAt);
      var rest := InsertByCreation(u, s[1..]);
      assert s == [s[0]] + s[1..];
      FirstStaysFirst(s[0], u, s[1..], rest);
      ConsSorted(s[0], rest);
      [s[0]] + rest
  }

  /** A user no later than the head of a sorted sequence is no later than any of it. */
  lemma HeadBound(u: User, s: seq<User>)
    requires SortedByCreation(s) && |s| > 0
    requires NoLater(u.createdAt, s[0].createdAt)
    ensures forall j :: 0 <= j < |s| ==> NoLater(u.createdAt, s[j].createdAt)
  {
    forall j | 0 < j < |s| ensures NoLater(u.createdAt, s[j].createdAt) {
      NoLaterTransitive(u.createdAt, s[0].createdAt, s[j].createdAt);
    }
  }

  lemma ConsSorted(x: User, s: seq<User>)
    requires SortedByCreation(s)
    requires forall j :: 0 <= j < |s| ==> NoLater(x.createdAt, s[j].createdAt)
    ensures SortedByCreation([x] + s)
  {
    var r := [x] + s;
    forall i, j | 0 <= i < j < |r| ensures NoLater(r[i].createdAt, r[j].createdAt) {
      assert r[j] == s[j - 1];
      if i > 0 {
        assert r[i] == s[i - 1];
      }
    }
  }

  /** A user no later than everything in `s` and than `u` is no later than a rearrangement of both. */
  lemma FirstStaysFirst(first: User, u: User, s: seq<User>, r: seq<User>)
    requires forall j :: 0 <= j < |s| ==> NoLater(first.createdAt, s[j].createdAt)
    requires NoLater(first.createdAt, u.createdAt)
    requires multiset(r) == multiset(s) + multiset{u}
    ensures forall j :: 0 <= j < |r| ==> NoLater(first.createdAt, r[j].createdAt)
  {
    forall j | 0 <= j < |r| ensures NoLater(first.createdAt, r[j].createdAt) {
      assert r[j] in multiset(r);
      if r[j] != u {
        assert r[j] in multiset(s);
        var m :| 0 <= m < |s| && s[m] == r[j];
      }
    }
  }

  function SortByCreation(s: seq<User>): (r: seq<User>)
    ensures SortedByCreation(r)
    ensures multiset(r) == multiset(s)
    ensures |r| == |s|
    decreases |s|
  {
    if |s| == 0 then []
    else
      assert s == [s[0]] + s[1..];
      InsertByCreation(s[0], SortByCreation(s[1..]))
  }

  /** Every stored user is in `s`, and everything in `s` is a stored user. */
  ghost predicate ListsExactly(users: Users, s: seq<User>)
  {
    && (forall k :: k in users ==> users[k] in s)
    && (forall u :: u in s ==> exists k :: k in users && users[k] == u)
  }

  /** The stored users in ascending key order. */
  function Listed(users: Users): (s: seq<User>)
    ensures |s| == |users|
    ensures ListsExactly(users, s)
  {
    var ks := SortedKeys(users.Keys);
    assert |ks| == |users|;
    var s := seq(|ks|, i requires 0 <= i < |ks| => users[ks[i]]);
    PickedListsExactly(users, ks, s);
    s
  }

  lemma PickedListsExactly(users: Users, ks: seq<int>, s: seq<User>)
    requires forall k :: k in ks <==> k in users
    requires |s| == |ks|
    requires forall i :: 0 <= i < |ks| ==> ks[i] in users && s[i] == users[ks[i]]
    ensures ListsExactly(users, s)
  {
    forall k | k in users ensures users[k] in s {
      var i :| 0 <= i < |ks| && ks[i] == k;
      assert s[i] == users[k];
    }
    forall u | u in s ensures exists k :: k in users && users[k] == u {
      var i :| 0 <= i < |s| && s[i] == u;
      var k := ks[i];
      assert k in users && users[k] == u;
    }
  }

  /** find_all: each stored user once, ordered by creation time. */
  function FindAll(users: Users, fault: bool): (r: Result<seq<User>, Error>)
    ensures fault ==> r == Err(StorageFailure)
    ensures !fault ==> r.Ok?
    ensures r.Ok? ==> SortedByCreation(r.value)
    ensures r.Ok? ==> |r.value| == |users|
    ensures r.Ok? ==> ListsExactly(users, r.value)
  {
    if fault then Err(StorageFailure)
    else
      var listed := Listed(users);
      var sorted := SortByCreation(listed);
      assert forall u :: u in sorted <==> u in listed by {
        forall u ensures u in sorted <==> u in listed {
          assert u in sorted <==> u in multiset(sorted);
          assert u in listed <==> u in multiset(listed);
        }
      }
      Ok(sorted)
  }

  // ---------------------------------------------------------------------
  // Writes.

  /** The row the table holds after inserting `u` under key `k`. */
  function Stored(u: User, k: int, defaultStamp: Stamp): (s: User)
    ensures s.id == Some(k)
    ensures s.username == u.username && s.password == u.password && s.email == u.email
    ensures s.isActive == u.isActive && s.isSuperuser == u.isSuperuser
    ensures s.createdAt == Some(GetOr(u.createdAt, defaultStamp)) && s.updatedAt == u.updatedAt
  {
    u.(id := Some(k), createdAt := Some(GetOr(u.createdAt, defaultStamp)))
  }

  lemma InsertKeepsValid(users: Users, k: int, s: User)
    requires Valid(users) && k !in users && s.id == Some(k)
    requires !Clashes(users, s.username, s.email)
    ensures Valid(users[k := s])
    ensures |users[k := s]| == |users| + 1
  {
    assert users[k := s].Keys == users.Keys + {k};
  }

  /** Adding key `k` keeps every other row and adds exactly that key. */
  lemma StoredUpdate(users: Users, k: int, s: User)
    requires k !in users
    ensures users[k := s].Keys == users.Keys + {k}
    ensures forall j :: j in users ==> users[k := s][j] == users[j]
    ensures users[k := s][k] == s
  {
  }

  /**
    save: a user without a (truthy) id is inserted; the unique columns and
    the primary key can refuse the commit, which leaves the table unchanged.
    A user with an id takes the update branch, which does nothing.
   */
  function Save(users: Users, u: User, defaultStamp: Stamp, fault: bool): (out: Written<Users, Option<User>>)
    requires Valid(users)
    ensures Valid(out.state)
    ensures Truthy(u.id) ==> out == Written(users, Ok(None))
    ensures out.result.Err? ==> out.state == users
    ensures !Truthy(u.id) && fault ==> out.result == Err(StorageFailure)
    ensures !Truthy(u.id) && !fault ==>
      (out.result == Err(IntegrityError) <==>
        Clashes(users, u.username, u.email) || (u.id == Some(0) && 0 in users))
    ensures !Truthy(u.id) && !fault && !Clashes(users, u.username, u.email) && !(u.id == Some(0) && 0 in users) ==>
      out.result.Ok?
    ensures !Truthy(u.id) && out.result.Ok? ==>
      var k := InsertKey(users.Keys, u.id);
      && k !in users
      && out.state == users[k := Stored(u, k, defaultStamp)]
      && |out.state| == |users| + 1
      && out.result.value == Some(Stored(u, k, defaultStamp))
  {
    if Truthy(u.id) then Written(users, Ok(None))
    else if fault then Written(users, Err(StorageFailure))
    else
      var k := InsertKey(users.Keys, u.id);
      if k in users || Clashes(users, u.username, u.email) then Written(users, Err(IntegrityError))
      else
        var s := Stored(u, k, defaultStamp);
        InsertKeepsValid(users, k, s);
        Written(users[k := s], Ok(Some(s)))
  }

  // ---------------------------------------------------------------------
  // The e-mail column as UserDO.from_entity writes it.

  /**
    `str(user.email)`: the `Email` dataclass defines no `__str__`, so this is
    its generated repr, which wraps the address. Python quotes an address
    holding a quote or a backslash differently; that is not modelled.
   */
  function EmailRepr(e: string): (c: string)
    ensures |c| == |e| + 15
    ensures c[13..|c| - 2] == e
    ensures '(' in c
  {
    assert ("Email(value='" + e + "')")[5] == '(';
    "Email(value='" + e + "')"
  }

  /** The repr is never the address itself, so a column holding it never equals the address. */
  lemma EmailReprDiffers(e: string)
    ensures EmailRepr(e) != e
  {
  }

  /** Distinct addresses give distinct reprs: the unique column still tells them apart. */
  lemma EmailReprInjective(e: string, f: string)
    ensures EmailRepr(e) == EmailRepr(f) <==> e == f
  {
    if EmailRepr(e) == EmailRepr(f) {
      var c := EmailRepr(e);
      assert e == c[13..|c| - 2] == f;
    }
  }

  /**
    `Email(self.email)` in UserDO.to_entity. The validator refuses a
    parenthesis anywhere in an address, as it accepts neither comments nor
    quoted local parts; its other rules are not part of this model.
   */
  function ReadBack(row: User): (r: Result<User, Error>)
    ensures r.Err? <==> '(' in row.email
    ensures r.Err? ==> r.error == InvalidEmail
    ensures r.Ok? ==> r.value == row
  {
    if '(' in row.email then Err(InvalidEmail) else Ok(row)
  }

  /** The row UserDO.from_entity makes of `u` under key `k`: the e-mail column holds the repr. */
  function StoredAsWritten(u: User, k: int, defaultStamp: Stamp): (s: User)
    ensures s.email == EmailRepr(u.email) && s.email != u.email
    ensures s.(email := u.email) == Stored(u, k, defaultStamp)
    ensures ReadBack(s) == Err(InvalidEmail)
  {
    EmailReprDiffers(u.email);
    Stored(u, k, defaultStamp).(email := EmailRepr(u.email))
  }

  /**
    save as written. The insert stores the repr, so the unique constraint
    compares reprs. The commit then stands, and reading the row back
    (`user_do.to_entity()`) raises ValueError, so a create never returns.
   */
  function SaveAsWritten(users: Users, u: User, defaultStamp: Stamp, fault: bool): (out: Written<Users, Option<User>>)
    requires Valid(users)
    ensures Valid(out.state)
    ensures Truthy(u.id) ==> out == Written(users, Ok(None))
    ensures !Truthy(u.id) && fault ==> out == Written(users, Err(StorageFailure))
    ensures !Truthy(u.id) && !fault ==>
      (out.result == Err(IntegrityError) <==>
        Clashes(users, u.username, EmailRepr(u.email)) || (u.id == Some(0) && 0 in users))
    ensures out.result == Err(IntegrityError) ==> out.state == users
    ensures !Truthy(u.id) && !fault && out.result != Err(IntegrityError) ==>
      var k := InsertKey(users.Keys, u.id);
      && k !in users
      && out.state == users[k := StoredAsWritten(u, k, defaultStamp)]
      && out.result == Err(InvalidEmail)
  {
    if Truthy(u.id) then Written(users, Ok(None))
    else if fault then Written(users, Err(StorageFailure))
    else
      var k := InsertKey(users.Keys, u.id);
      var s := StoredAsWritten(u, k, defaultStamp);
      if k in users || Clashes(users, s.username, s.email) then Written(users, Err(IntegrityError))
      else
        InsertKeepsValid(users, k, s);
        match ReadBack(s)
        case Ok(v) => Written(users[k := s], Ok(Some(v)))
        case Err(e) => Written(users[k := s], Err(e))
  }

  /** remove: deletes that user only; a missing key is a silent no-op. */
  function Remove(users: Users, id: int): (out: Written<Users, ()>)
    requires Valid(users)
    ensures Valid(out.state)
    ensures out.result == Ok(())
    ensures id !in out.state
    ensures out.state.Keys == users.Keys - {id}
    ensures forall k :: k in out.state ==> out.state[k] == users[k]
    ensures id !in users ==> out.state == users
    ensures id in users ==> |out.state| == |users| - 1
  {
    Written(users - {id}, Ok(()))
  }
}

=== FILE: wrappers.dfy ===
/** The failure-carrying shapes every operation of the model returns. */
module Wrappers {

  /** Python's `Optional[...]`: `None` or a present value. */
  datatype Option<T> = None | Some(value: T)

  /** The value of `o`, or `default` when it is absent. */
  function GetOr<T>(o: Option<T>, default: T): T
  {
    match o
    case Some(v) => v
    case None => default
  }

  /** A normal return or a raised exception. */
  datatype Result<T, E> = Ok(value: T) | Err(error: E)
}
